=== FILE: README.md ===
# pytest-catchlog, modelled in Dafny

pytest-catchlog is a pytest plugin that captures what tests send to Python's
`logging` module and shows it in the test report. This project models its
core as pure Dafny functions over explicit state and proves properties of
that model. Three revisions of the plugin are covered, plus the pure helpers
of the release script:

- `pytest_catchlog/common.py`: the scoped helpers `logging_at_level`,
  `logging_using_handler` and `catching_logs`. Each is written as an entry
  transition, an exit transition and a combinator that runs a body between
  them. A body is a function from state to a `Run`, which is the new state
  plus an `Outcome` (returned, or raised an error). The exit runs whatever
  way the body left, as `try/finally` does.
- `pytest_catchlog/plugin.py`:
  - option handling: `get_option_ini`, `get_actual_log_level`,
    `pytest_configure` and `CatchLogPlugin.__init__`;
  - the per-phase capture `_runtest_for` behind the setup, call and
    teardown hooks;
  - the capture handler `LogCaptureHandler`.
- `pytest_catchlog.py` and `pytest_capturelog.py`, the single-module
  revisions:
  - the handler is attached at setup and detached at the `call` report;
  - a stripped "Captured log" section goes into a failed report;
  - the `caplog` object offers `set_level`/`at_level`, `records`, `text`
    and `record_tuples`; the older module's object has the camel-case
    `setLevel`/`atLevel`, `records` and `text`, and no `record_tuples`.
- `tasks.py`:
  - `_shell_quote`;
  - reading version tags (`_version_find_existing`, `_version_find_latest`);
  - `_version_guess_next` and `_version_format`;
  - the line loop of `_patch_file`;
  - the line callbacks of `_patch_change_log` and `changelog_add_stub`.

The `logging` module itself appears as a registry: a map from logger to its
own level and its ordered list of handler identities. A logger missing from
the map is created on first use, as `logging.getLogger` does. The root logger
starts at WARNING and every other logger at NOTSET. A handler's own state
travels with the environment (`Capture.Env`): its level, filters, formatter,
records, text and whether it is closed. A formatter's rendering of a record is
a parameter (`Capture.Render`) that may fail. The text a handler holds is the
concatenation of the renderings of the records it kept; a record whose
rendering fails is still kept, and nothing is written for it, because
`StreamHandler.emit` hands the error to `handleError`, which swallows it.

Strings follow Python 3: `str.strip()` removes every character for which
`str.isspace()` holds, and a command-line level is text, so it is always
upper-cased before the lookup.

The release helpers are paired with independent reference definitions:

- The shell quoting is proved against a reader of shell words written after
  section 2.2 "Quoting" of the POSIX Shell Command Language (IEEE Std
  1003.1). `ShellQuote.ReadWord` reads unquoted characters, single-quoted
  strings and double-quoted strings without `$`, backquote or backslash.
  `ShellQuote.QuoteRoundTrip` shows that reading `_shell_quote(s)` back gives
  `s`, for every text.
- The version formatter is proved against the tag grammar
  `^v?(\d+)(?:\.(\d+)(?:\.(\d+))?)?$`.
- The patching loop, a method with a loop, is proved equal to a recursive
  definition of the written content. Its `file_changed` flag is proved to say
  exactly whether the content differs from the lines read.

Two details of the plugin's behaviour that are easy to get wrong:

- `_runtest_for` adds the section after its `try/finally`, so a body that
  raises adds none (`CatchLogPlugin.RaisingPhaseNoSection`). In the three
  hooks, the body is a hook wrapper's `yield`, which hands back the hook's
  outcome instead of raising. A failing test therefore still gets its
  section; `CatchLogPlugin.RunPhases` runs bodies that return.
- The text put in a section is `strip()`ped, which removes whitespace at
  both ends of the text, the leading whitespace included.

Files: `base.dfy`, `text.dfy`, `registry.dfy`, `capture.dfy`, `common.dfy`,
`funcarg.dfy`, `report.dfy`, `legacy_catchlog.dfy`, `legacy_capturelog.dfy`,
`catchlog_config.dfy`, `catchlog_plugin.dfy`, `shell_quote.dfy`,
`versions.dfy` and `patch_file.dfy`. Each has one module.

## Model

| member | source | states |
|---|---|---|
| `LogRegistry.GetLogger` | pytest_catchlog/common.py:15-16 | `None` and the empty name give the root logger; any other name gives the logger of that name |
| `LogRegistry.SetLevel` | pytest_catchlog/common.py:26 | the logger's level becomes the new level, its handlers stay, and every other logger is unchanged |
| `LogRegistry.AddHandler` | pytest_catchlog/common.py:43 | appends the handler unless it is already in the list; the level and all other loggers are unchanged |
| `LogRegistry.RemoveFirst` | pytest_catchlog/common.py:47 | removing from a list without the handler leaves it unchanged; otherwise exactly one occurrence goes (multiset difference) |
| `LogRegistry.RemoveFirstAt` | pytest_catchlog/common.py:47 | when `x` first occurs right after a prefix `a`, removing `x` from `a + [x] + b` gives exactly `a + b`: the first occurrence goes and the order of everything else is kept |
| `LogRegistry.RemoveAppended` | pytest_catchlog/common.py:43-47 | removing a handler just appended to a list that lacked it gives back the original list |
| `LogRegistry.RemoveHandler` | pytest_catchlog/common.py:47 | only the named logger's handler list changes, by removing one occurrence |
| `Common.GetLoggerObj` | pytest_catchlog/common.py:10-17 | `None` means root, a name is looked up, and a logger object is used as is |
| `Common.AtLevelEnter` | pytest_catchlog/common.py:23-26 | saves the logger's level, then sets the new one; handlers and other loggers are untouched |
| `Common.AtLevelExit` | pytest_catchlog/common.py:29-30 | puts the saved level back and touches nothing else |
| `Common.LoggingAtLevel` | pytest_catchlog/common.py:20-30 | the body's outcome (return or exception) passes through, and the logger's level afterwards is the level before |
| `Common.AtLevelRoundTrip` | pytest_catchlog/common.py:25-30 | entering and leaving at once gives back the registry, apart from creating the logger |
| `Common.NestedAtLevelLifo` | pytest_catchlog/common.py:20-30 | nested scopes on one logger unwind last-in first-out, whatever the outer body does around the inner scope: the inner exit restores the level in force when the inner scope was entered, then the outer exit restores the original |
| `Common.UsingHandlerEnter` | pytest_catchlog/common.py:36-43 | attaches the handler only when absent, and records whether it did |
| `Common.UsingHandlerExit` | pytest_catchlog/common.py:44-47 | detaches the handler only if the entry attached it |
| `Common.LoggingUsingHandler` | pytest_catchlog/common.py:33-47 | the outcome passes through; when the handler is already attached, the body runs on the unchanged registry and nothing is undone (reentrancy) |
| `Common.UsingHandlerRoundTrip` | pytest_catchlog/common.py:38-47 | either way, the handler is attached inside the scope, and entering then leaving gives back the registry |
| `Common.UsingHandlerRestores` | pytest_catchlog/common.py:38-47 | a body that leaves the handler list alone, even one that raises, ends with the list as before the scope |
| `Common.CatchingLogsEnter` | pytest_catchlog/common.py:50-64 | filter and formatter are set only when given and the level always; the handler is appended to the logger's list unless it is already there; the logger drops to the smaller of the two levels; every other logger is unchanged |
| `Common.CatchingLogsExit` | pytest_catchlog/common.py:62-64 | restores the level, then detaches the handler (unless it was attached before) and closes it |
| `Common.CatchingLogs` | pytest_catchlog/common.py:50-66 | the outcome passes through, the handler ends closed, and the logger's level is restored |
| `Common.ReentrantLeavesClosedHandler` | pytest_catchlog/common.py:37-66 | when the handler was already attached before `catching_logs`, and the body neither detaches it nor replaces it, the handler stays attached after the block but is closed, and later records write nothing to its text |
| `Common.CatchingLogsRestores` | pytest_catchlog/common.py:50-66 | a body that leaves the handler list alone, even one that raises, leaves the logger exactly as it was, with the handler closed |
| `Capture.Emit` | pytest_catchlog/plugin.py:260-264 | appends the record to the records, even when its rendering fails; appends the rendering to the text when the handler is open and the rendering succeeds, and nothing when it fails or the handler is closed; nothing else changes |
| `Capture.EmitAll` | pytest_catchlog/plugin.py:260-264 | emitting a sequence of records appends all of them in order, and on an open handler their renderings in the same order; a closed handler's text stays as it was |
| `Capture.Close` | pytest_catchlog/plugin.py:254-258 | the handler is closed and otherwise unchanged |
| `Capture.ClosedHandlerWritesNothing` | pytest_catchlog/plugin.py:254-264 | logging through a closed handler leaves its text unchanged, and it stays closed |
| `Capture.SetHandlerLevel` | pytest_catchlog/common.py:60 | only the handler's level changes |
| `Capture.AddFilter` | pytest_catchlog/common.py:56-57 | the filter is present afterwards; it is appended once and never twice |
| `Capture.ClearRecords` | pytest_catchlog.py:138-141 | clearing the list returned by `records()` empties the handler's records and keeps its text |
| `Capture.Handle` | pytest_catchlog.py:153-162 | a handler keeps a record at or above its level and ignores one below it |
| `Capture.Log` | pytest_catchlog.py:63-70 | a record on a logger that is not enabled for it, or below the handler's level, leaves everything unchanged; the registry never changes |
| `Capture.LogThroughRoot` | pytest_catchlog.py:66-70 | a handler on the root logger alone keeps a record from any logger exactly when both the logger and the handler let it through |
| `FuncArg.Target` | pytest_catchlog.py:161 | `None` or an empty name picks the handler; any other name picks that logger |
| `FuncArg.SetTargetLevel` | pytest_catchlog.py:161-162 | sets the level of the chosen object only |
| `FuncArg.SetLevelOf` | pytest_catchlog.py:153-162 | `set_level` (`setLevel` in pytest_capturelog.py:243-252) sets the handler's level without a logger name, and otherwise that logger's level alone |
| `FuncArg.AtLevelEnter` | pytest_catchlog.py:185-189 | saves the target's level, then applies `set_level` |
| `FuncArg.AtLevelExit` | pytest_catchlog.py:191-194 | puts the saved level back on the target; a handler target leaves the registry alone, and a logger target changes only that logger's level and leaves the handler alone |
| `FuncArg.AtLevel` | pytest_catchlog.py:164-194 | the body's outcome passes through, since `__exit__` does not suppress exceptions, and the target's level is restored |
| `FuncArg.NestedOverridesLifo` | pytest_catchlog.py:176-194 | nested overrides on the same logger unwind last-in first-out, whatever the outer body does before the inner override and after it ends: the inner exit gives back the level it found, the outer exit the original one |
| `FuncArg.RecordTuples` | pytest_catchlog.py:143-151 | one `(name, levelno, message)` tuple per record, in record order |
| `FuncArg.RecordTuplesAfterEmits` | pytest_catchlog.py:138-151 | records emitted later appear at the end of `record_tuples`, in emission order |
| `FuncArg.ClearThenEmit` | test_pytest_catchlog.py:271-292 | after `del caplog.records()[:]` the records are exactly those logged afterwards, and the text keeps everything (an open handler also holds the new renderings) |
| `FuncArg.ChangeLevelScenario` | test_pytest_catchlog.py:94-122 | `set_level(INFO)` on the handler drops the DEBUG record; `set_level(CRITICAL, 'm.baz')` drops the sublogger's WARNING record; only INFO and CRITICAL are kept |
| `Report.AddCapturedLog` | pytest_catchlog.py:88-93 | a section "Captured log" holding the stripped text is added exactly when the representation takes sections and the text is not all whitespace; otherwise the report is unchanged |
| `LegacyCatchLog.Setup` | pytest_catchlog.py:51-70 | a fresh handler with the shared formatter goes on the item and into the root's list (appended when absent, the list unchanged when already there); the root drops to NOTSET; other loggers are untouched |
| `LegacyCatchLog.MakeReportWith` | pytest_catchlog.py:72-99 | other phases pass through untouched; at 'call', a missing handler is an AttributeError naming the item attribute; otherwise the handler is detached from the root, closed and dropped, and a failed report gets the section when printing is on |
| `LegacyCatchLog.MakeReport` | pytest_catchlog.py:72-99 | is `MakeReportWith` with the plugin's printing switch and the `catch_log_handler` attribute, so it has all of that member's guarantees; with printing off the report is never changed; with it on, a section is added exactly when the test failed, the representation takes sections and the text is not all whitespace |
| `LegacyCatchLog.SetupCallPairing` | pytest_catchlog.py:63-97 | when the body leaves the root's handler list alone, the call report detaches exactly the handler setup attached, and the handler ends closed |
| `LegacyCaptureLog.Configure` | pytest_capturelog.py:131-149 | the plugin is registered exactly when capturing is on, with the formatter built from `log_format` and `log_date_format` |
| `LegacyCaptureLog.Setup` | pytest_capturelog.py:151-170 | a fresh handler with the plugin's formatter goes on the item and into the root's list (appended when absent, the list unchanged when already there); the root drops to NOTSET; every other logger is untouched |
| `LegacyCaptureLog.MakeReport` | pytest_capturelog.py:172-199 | is `LegacyCatchLog.MakeReportWith` with printing always on and the `capturelog_handler` attribute; other phases pass through; at 'call' a missing attribute is an AttributeError naming `capturelog_handler`; otherwise the handler is always detached and closed, the root level, every other logger and the pass/fail outcome are kept, and a report whose sections did not change is unchanged; the section changes exactly when the test failed, the representation takes sections and the stripped text is not empty |
| `LegacyCaptureLog.NothingLoggedNoSection` | test_pytest_capturelog.py:18-36 | a failing test that logged nothing gets no "Captured log" section |
| `CatchLogConfig.GetOptionIni` | pytest_catchlog/plugin.py:27-31 | the command-line value wins unless it is `None`, in which case the ini value or its default is used |
| `CatchLogConfig.OptionIniNeverNone` | pytest_catchlog/plugin.py:21-31 | the result is never `None` (pytest's `getini` gives the empty text for an option without entry or default); for such an option it is falsy exactly when the command line gives a falsy value, or gives nothing and the ini entry is missing or empty |
| `CatchLogConfig.ParseLevel` | pytest_catchlog/plugin.py:111-120 | a level name gives its number and a decimal numeral its value; anything else is a usage error naming the value and the setting |
| `CatchLogConfig.GetActualLogLevel` | pytest_catchlog/plugin.py:104-120 | a falsy setting gives `None`; text is upper-cased, then parsed, and any failure is that text's usage error; truthy text never gives `None`; text that parses gives exactly that level |
| `CatchLogConfig.LevelNameAnyCase` | pytest_catchlog/plugin.py:109-112 | level names are accepted in any letter case |
| `CatchLogConfig.NumericLevelRoundTrip` | pytest_catchlog/plugin.py:111-112 | a level written as the decimal form of `n` reads back as `n` |
| `CatchLogConfig.CliLevel` | pytest_catchlog/plugin.py:127-135 | `log_cli_level` if set, else `log_level`, else WARNING; the first unusable value is the error |
| `CatchLogConfig.FileLevel` | pytest_catchlog/plugin.py:136-142 | without a log file, `None` without parsing anything; with one, `log_file_level` or WARNING |
| `CatchLogConfig.CoercePrintLogs` | pytest_catchlog/plugin.py:156-162 | booleans pass through; true, yes and 1 in any case give `True`; false, no and 0 give `False`; other text is kept |
| `CatchLogConfig.PrintLogsNeverNone` | pytest_catchlog/plugin.py:38-42 | `log_print` is always a boolean or text, thanks to its ini default |
| `CatchLogConfig.CoercePrintLogsIdempotent` | pytest_catchlog/plugin.py:157-161 | coercing twice is coercing once |
| `CatchLogConfig.NoPrintLogsDisables` | pytest_catchlog/plugin.py:38-42 | `--no-print-logs` turns printing off, whatever the ini file says |
| `CatchLogConfig.PrintLogsDefaultOn` | pytest_catchlog/plugin.py:38-42 | with neither the flag nor an ini entry, printing is on |
| `CatchLogConfig.IniFalseDisables` | pytest_catchlog/plugin.py:156-162 | an ini value spelling false, no or 0 in any case turns printing off |
| `CatchLogConfig.Fallback` | pytest_catchlog/plugin.py:167-174 | a truthy specific format is used, otherwise the general one; a truthy general format makes the result truthy |
| `CatchLogConfig.NewPlugin` | pytest_catchlog/plugin.py:150-198 | the coerced printing switch; the session formatter; the CLI formatter with fallbacks; a file formatter exactly when a log file is set |
| `CatchLogConfig.Configure` | pytest_catchlog/plugin.py:123-143 | succeeds exactly when both levels are usable, and reports the CLI level's error first; on success the session carries the CLI level, the log file, the file level (present exactly when the log file is truthy) and the plugin settings |
| `CatchLogConfig.FileLevelIgnoredWithoutFile` | pytest_catchlog/plugin.py:136-142 | without a log file, any `log_file_level`, even an invalid one, leaves the configuration unchanged |
| `CatchLogPlugin.PhaseEnter` | pytest_catchlog/plugin.py:200-205 | a new handler with the session formatter is stored on the item and appended to the root's list unless already there; the root level drops to NOTSET; every other logger is unchanged |
| `CatchLogPlugin.PhaseExit` | pytest_catchlog/plugin.py:206-214 | the attribute is always deleted; the stripped text is added as the phase's "log" section only if `print_logs` is truthy and the body returned |
| `CatchLogPlugin.RunTestFor` | pytest_catchlog/plugin.py:200-214 | the outcome passes through; the attribute is gone afterwards; the root level is restored; a section is added exactly when `print_logs` is truthy and the body returned |
| `CatchLogPlugin.NoPrintLogsNoSection` | pytest_catchlog/plugin.py:211-214 | with `--no-print-logs`, the configured plugin adds no section for any phase, whatever the body and the ini file |
| `CatchLogPlugin.RunTestForRestoresRoot` | pytest_catchlog/plugin.py:200-214 | a body that leaves the root's handler list alone, even one that raises, leaves the root logger exactly as before |
| `CatchLogPlugin.FreshHandlerText` | pytest_catchlog/plugin.py:254-264 | an open handler whose buffer is still empty ends up holding exactly the renderings of the records it emits |
| `CatchLogPlugin.EmittingPhaseSection` | pytest_catchlog/plugin.py:203-214 | a phase that logs some records holds exactly their stripped rendering in its section, because each phase's handler starts empty |
| `CatchLogPlugin.Step` | pytest_catchlog/plugin.py:216-229 | one hook adds exactly its expected section and leaves no attribute behind |
| `CatchLogPlugin.RunPhasesBySections` | pytest_catchlog/plugin.py:216-229 | hooks that each add one section, run in sequence, add the sections in hook order |
| `CatchLogPlugin.RunPhasesSections` | pytest_catchlog/plugin.py:216-229 | every hook adds one section under its own phase name, in order, holding only its own records |
| `CatchLogPlugin.RunPhasesByClearsAttribute` | pytest_catchlog/plugin.py:205-209 | if every step deletes the attribute, none is left after one or more steps |
| `CatchLogPlugin.RunPhasesClearsAttribute` | pytest_catchlog/plugin.py:205-209 | after any number of hooks (at least one), no handler is left on the item |
| `CatchLogPlugin.SetupCallTeardownSections` | pytest_catchlog/plugin.py:216-229 | setup, call and teardown give three sections, 'setup', 'call' and 'teardown' in that order, each with its own text |
| `CatchLogPlugin.RaisingPhaseNoSection` | pytest_catchlog/plugin.py:206-214 | a phase that raised adds no section, even with printing on, and the attribute is gone all the same |
| `Text.Strip` | pytest_catchlog/plugin.py:213 | the result is empty exactly when the text is all whitespace in the sense of Python 3's `str.isspace()`; otherwise it is the slice between the leading and trailing whitespace, with non-space ends |
| `Text.StripDropsSpace` | pytest_catchlog/plugin.py:213 | what `strip` drops on each side is whitespace |
| `Text.NatToStringRoundTrip` | tasks.py:96-98 | `int(str(n)) == n` for every natural number |
| `Text.SplitJoin` | tasks.py:63 | joining the pieces of `split(sep)` with `sep` gives back the text |
| `Text.SplitPrefix` | tasks.py:63 | a piece free of the separator, followed by the separator, becomes the first piece |
| `ShellQuote.ReplaceQuotes` | tasks.py:28 | a text without a single quote is unchanged, and nothing gets shorter |
| `ShellQuote.Quote` | tasks.py:22-28 | never empty; a non-empty text of safe characters is kept as is; otherwise it is safe or wrapped in single quotes |
| `ShellQuote.ReadSafe` | tasks.py:26-27 | safe characters read back as themselves |
| `ShellQuote.ReadQuoted` | tasks.py:28 | the quoted and escaped form of any text reads back as that text, whatever follows it |
| `ShellQuote.QuoteRoundTrip` | tasks.py:22-28 | a POSIX shell reads the quoted argument back as the original text, for every text, including the empty one |
| `Versions.LessTotal` | tasks.py:76 | the tuple order used by `max` is total |
| `Versions.ParseTag` | tasks.py:65-66 | a tag matches exactly when, after the optional `v`, its dot-separated groups are one to three runs of digits |
| `Versions.DropV` | tasks.py:65 | the optional leading `v` is removed when present, and the tag is otherwise unchanged |
| `Versions.ParseGroups` | tasks.py:65-66 | the groups match exactly when there are one to three of them and each is a run of digits; the version's parts are their decimal values, and missing groups give 0 |
| `Versions.CollectMembers` | tasks.py:66-67 | a value is collected exactly when some line gives it |
| `Versions.ParsedTagsMembers` | tasks.py:63-67 | a version is found exactly when some line of the tag list, once stripped, parses to it |
| `Versions.ExistingVersions` | tasks.py:57-67 | a version is in the set exactly when some line of the `git tag -l` output, once stripped, parses to it |
| `Versions.Latest` | tasks.py:70-76 | `None` exactly for no versions; otherwise a member that is at least every other member |
| `Versions.LatestOfSameSet` | tasks.py:66-76 | the latest version depends only on the set of versions, not on order or repetition |
| `Versions.PositionIndex` | tasks.py:90 | major, minor and patch map to 0, 1 and 2; every other name is missing |
| `Versions.Bump` | tasks.py:91-92 | increments the chosen part, zeroes the later parts and keeps the earlier ones |
| `Versions.GuessNext` | tasks.py:79-93 | an unknown position is a KeyError; otherwise the guess is the latest version (0.0.0 when there is none) bumped at the position, and strictly later than every existing version |
| `Versions.FirstGuess` | tasks.py:85-93 | with no tags, the default guess is 0.1.0 |
| `Versions.FormatVersion` | tasks.py:96-98 | the formatted version splits on dots into exactly the decimal forms of major, minor and patch, and starts and ends with a digit |
| `Versions.FormatParseRoundTrip` | tasks.py:65-98 | a formatted version parses back to itself under the tag grammar |
| `Versions.ShortTagsPadWithZero` | tasks.py:65-66 | `a` and `a.b` read as `a.0.0` and `a.b.0` |
| `Versions.SuffixedGroups` | tasks.py:65 | a formatted version followed by a dot-free suffix splits into major, minor, and patch with the suffix attached |
| `Versions.SuffixedTagRejected` | tasks.py:65 | a formatted version followed by a dot-free suffix holding a non-digit, such as `1.2.0-rc1` or `1.2.0b2`, does not match |
| `Versions.NonDigitLastGroup` | tasks.py:65 | a tag of two or three groups whose last group holds a non-digit does not match |
| `Versions.PreReleaseTagsRejected` | tasks.py:65 | the pre-release tags `v1.2.0-rc1` and `1.0b2` do not match, so they never count as existing versions |
| `Versions.LeadingVIsOptional` | tasks.py:65 | `v` followed by a tag reads as the tag |
| `Versions.TooManyGroupsRejected` | tasks.py:65 | four dot-separated groups never match |
| `Versions.EmptyGroupRejected` | tasks.py:65 | an empty group never matches |
| `Versions.StripKeepsVersion` | tasks.py:63 | stripping a formatted version changes nothing |
| `Versions.TaggedReleaseIsSeen` | tasks.py:57-93 | once a version's tag is a line of the `git tag -l` output, it is among the existing versions and every later guess lies beyond it |
| `PatchFile.Alternatives` | tasks.py:120 | never empty; a non-empty callback answer replaces the line, and `None` or an empty answer keeps it |
| `PatchFile.PatchedContent` | tasks.py:117-123 | at least one output line per input line, every output line terminated by a newline |
| `PatchFile.PatchLines` | tasks.py:117-123 | the loop writes exactly the reference content, and `file_changed` is set exactly when some line is replaced by something else |
| `PatchFile.NoReplacementKeepsContent` | tasks.py:119-123 | when no line is replaced, the content written is the lines read, terminated |
| `PatchFile.SameContentNoReplacement` | tasks.py:119-123 | content equal to the lines read means no line was replaced |
| `PatchFile.ChangedIffContentDiffers` | tasks.py:101-132 | the returned flag is true exactly when the written file differs from the lines read |
| `PatchFile.KeepingCallbackChangesNothing` | tasks.py:119-123 | a callback that always returns `None` leaves the file as read |
| `PatchFile.StubCallback` | tasks.py:161-169 | answers only for the marker line, and the block it returns starts with the marker |
| `PatchFile.StubChangesIffMarker` | tasks.py:158-170 | adding the stub reports a change exactly when the change log has the marker line |
| `PatchFile.StubKeepsMarker` | tasks.py:161-170 | the marker is in the written file exactly when it was in the file read, so the stub can be added again later |
| `PatchFile.ChangeLogChanges` | tasks.py:148-155 | a release reports a change exactly when the 'Unreleased' title is present and differs from the version's title, or the note is present and differs from the release line |

## Left out

- The `logging` module's internals. The logger hierarchy is flat: a named
  logger's parent is the root. Loggers are never disabled, always propagate,
  and filters have no effect. A formatter's output is a parameter.
  Dotted-name parents and `logger.disabled` are not modelled.
- pytest itself: hook wrappers, `__multicall__`, the order in which pytest
  calls hooks, and how it prints report sections. An empty section text is
  passed on as it is, because hiding it is the host's business.
- `pytest_catchlog/fixture.py` (the `caplog` fixture of the package revision)
  is not part of this model; the single-module revisions' `caplog` objects
  are modelled.
- `pytest_runtestloop`, `StreamHandler(sys.stderr)`, `FileHandler` and
  writing to them are I/O. The CLI and file levels and formatters they are
  configured with are modelled.
- CatchLogConfig.ParseLevel: only non-empty runs of ASCII digits are read
  as numbers. Python's `int()` also accepts surrounding whitespace, a sign
  and underscores. A `logging` attribute holding an integer other than the
  level names does not exist in upper case, so that lookup is complete.
- CatchLogConfig.GetActualLogLevel: a truthy value that is neither text nor
  a boolean cannot come from the command line or the ini file, so none is
  modelled.
- Capture.Log: a record reaches the capture handler through at most the
  logger itself and the root, following the flat hierarchy above.
- In pytest_catchlog.py and pytest_capturelog.py, a setup whose attachment
  is never followed by a `call` report (for example when setup fails) leaves
  the handler attached. The model shows that state but proves nothing about
  it beyond `LegacyCatchLog.SetupCallPairing`.
- ShellQuote.ReadWord: covers only the subset of POSIX shell words that
  `_shell_quote` produces, plus double-quoted strings without `$`, backquote
  or backslash. Any other word reads as `None`.
- Text.Upper, Text.Lower: only ASCII letters change case. Python 3 also
  maps non-ASCII characters, some of them onto ASCII text: `'ı'` and
  `'ſ'` upper-case to `'I'` and `'S'`, `'ß'` to `'SS'`, the ligatures
  U+FB00 to U+FB06 to two or three ASCII letters, and the Kelvin sign
  lower-cases to `'k'`. So `--log-level=ınfo` is a usage error in the model
  and INFO in Python.
- CatchLogConfig.LevelNameAnyCase: holds for the ASCII case variants of a
  level name only, following `Text.Upper`. Under Python 2 a command-line
  value is a byte string, which is not `py.builtin.text`; plugin.py then
  skips `upper()`, and a lower-case name such as `info` finds the function
  `logging.info`, whose `int()` is a `TypeError`. The model follows
  Python 3.
- FuncArg.RecordTuples: a record's message is a given text. A record whose
  `getMessage()` raises, because its template does not fit its arguments,
  makes `record_tuples()` raise in the source; the model has no such record.
- FuncArg.AtLevelEnter: `CatchLogLevel` keeps the saved level on the object,
  so entering one object twice, nested, lets the outer exit restore the
  level saved by the inner entry. The model saves the level in a fresh
  scope value per entry, so a re-entered object cannot be expressed.
- CatchLogPlugin.PhaseEnter: the item holds a snapshot of the handler taken
  at entry, where the source stores the live handler object. A body that
  reads the handler through the item sees no records logged after entry;
  the text put in the section is read from the live handler.
- ShellQuote.IsWordChar and Text.IsDigit: `\w` and `\d` are taken in
  their ASCII meaning. Python 3 also matches other Unicode letters and
  digits, so a text with such letters is quoted by the model where the
  source would keep it as is.
- Git and invoke calls, file opening, writing, `fsync` and `rename`, and
  `datetime.utcnow()` are I/O. The tag list is a parameter, and so is the
  release line built from the date (`PatchFile.ChangeLogCallback`).
  `stdout.strip('\n')` on git's output is not modelled, because the tag
  lines are split and stripped afterwards.
- `_patch_file` takes the file as its lines with the terminator already
  removed. Reading the file and `x.strip('\n')` on each line are left to the
  caller. Every line is written back with a `'\n'`, so a file whose last line
  has no newline gains one while `file_changed` stays False. The docstring's
  promise that the result tells whether the file changed does not hold for
  such a file; `PatchLines` states what the loop does.
- `_patch_version` (its regular expression), `mkrelease` and `_git_work_on`
  only compose the modelled helpers with I/O.
- `setup.py` and the performance scripts under `tests/perf` are not part of
  this model.

=== FILE: base.dfy ===
/** Shared vocabulary: optional values, error-carrying results, the way a
    `with` body leaves its scope, loosely-typed option values, and the
    numeric levels of Python's `logging` module. */
module Base {

  datatype Option<+T> = None | Some(value: T)

  datatype Result<+T, +E> = Success(value: T) | Failure(error: E)

  /** How control leaves a scoped body: normally, or by an exception that
      keeps propagating (identified only by its description). */
  datatype Outcome = Returned | Raised(error: string)

  /** The state a scoped body hands back, together with how it left. */
  datatype Run<+S> = Run(state: S, outcome: Outcome)

  /** A configuration value as the plugin sees it: Python's `None`, a text
      value or a boolean. */
  datatype Value = VNone | VStr(s: string) | VBool(b: bool)

  /** Python truthiness of a configuration value. */
  predicate Truthy(v: Value) {
    match v
    case VNone => false
    case VStr(s) => s != []
    case VBool(b) => b
  }

  /** Numeric levels of the standard `logging` module. */
  type Level = int

  const NOTSET: Level := 0
  const DEBUG: Level := 10
  const INFO: Level := 20
  const WARNING: Level := 30
  const ERROR: Level := 40
  const CRITICAL: Level := 50

  function Min(a: int, b: int): (m: int)
    ensures m <= a && m <= b
    ensures m == a || m == b
  {
    if a <= b then a else b
  }
}

=== FILE: capture.dfy ===
/** The capture handler shared by all three revisions of the plugin
    (`LogCaptureHandler`, `CatchLogHandler`, `CaptureLogHandler`): a
    `StreamHandler` writing into an in-memory text buffer that also keeps the
    records it was given, plus the two-stage delivery of a record from a
    logger to that handler. */
module Capture {
  import opened Base
  import opened LogRegistry

  /** A log record as the handler sees it. `msg` is the raw template and
      `message` what `getMessage()` renders from it and its arguments. */
  datatype Record = Record(name: string, levelno: Level, msg: string, message: string)

  /** What a `logging.Formatter` is built from: layout and date format. */
  datatype Formatter = Formatter(fmt: Value, datefmt: Value)

  /** Identity of a `logging.Filter` object. */
  type FilterId = nat

  /** Renders one record, terminator included, with the handler's formatter
      (`None` is the logging module's default formatter). `None` stands for
      a formatting error: the message template does not fit its arguments,
      or the layout names a field the record lacks. */
  type Render = (Option<Formatter>, Record) -> Option<string>

  datatype Handler = Handler(
    id: HandlerId,
    level: Level,
    filters: seq<FilterId>,
    formatter: Option<Formatter>,
    records: seq<Record>,
    text: string,
    closed: bool)

  /** A handler as its constructor leaves it. */
  function NewHandler(id: HandlerId): Handler {
    Handler(id, NOTSET, [], None, [], [], false)
  }

  /** The handler together with the logging registry it may be attached to. */
  datatype Env = Env(reg: Registry, handler: Handler)

  /** What the stream receives for one record: its rendering, or nothing
      when formatting fails (`handleError` reports the error elsewhere and
      swallows it). */
  function Written(render: Render, f: Option<Formatter>, rec: Record): string {
    match render(f, rec)
    case None => []
    case Some(t) => t
  }

  /** `emit(record)`: keep the record, then write its rendering. The record
      is kept even when nothing can be written: when the rendering fails, or
      when the handler is closed and writing to its closed buffer raises
      (`handleError` swallows both). */
  function Emit(h: Handler, rec: Record, render: Render): (r: Handler)
    ensures r.records == h.records + [rec]
    ensures !h.closed && render(h.formatter, rec).Some? ==> r.text == h.text + render(h.formatter, rec).value
    ensures h.closed || render(h.formatter, rec).None? ==> r.text == h.text
    ensures r.(records := h.records, text := h.text) == h
  {
    var written := if h.closed then [] else Written(render, h.formatter, rec);
    h.(records := h.records + [rec], text := h.text + written)
  }

  /** The concatenated renderings of `rs`, in order. */
  function Rendered(rs: seq<Record>, f: Option<Formatter>, render: Render): string {
    if rs == [] then [] else Written(render, f, rs[0]) + Rendered(rs[1..], f, render)
  }

  /** Emitting each record of `rs` in turn; a closed handler only keeps
      them. */
  function EmitAll(h: Handler, rs: seq<Record>, render: Render): (r: Handler)
    ensures r.records == h.records + rs
    ensures !h.closed ==> r.text == h.text + Rendered(rs, h.formatter, render)
    ensures h.closed ==> r.text == h.text
    ensures r.(records := h.records, text := h.text) == h
    decreases |rs|
  {
    if rs == [] then h
    else
      var r := EmitAll(Emit(h, rs[0], render), rs[1..], render);
      assert h.records + [rs[0]] + rs[1..] == h.records + rs;
      r
  }

  /** `close()`: closes the text buffer, so later writes to it fail. */
  function Close(h: Handler): (r: Handler)
    ensures r.closed
    ensures r.(closed := h.closed) == h
  {
    h.(closed := true)
  }

  /** `handler.setLevel(level)` */
  function SetHandlerLevel(h: Handler, level: Level): (r: Handler)
    ensures r.level == level
    ensures r.(level := h.level) == h
  {
    h.(level := level)
  }

  /** `handler.addFilter(f)`: appends `f` unless it is already there. */
  function AddFilter(h: Handler, f: FilterId): (r: Handler)
    ensures f in r.filters
    ensures f in h.filters ==> r == h
    ensures f !in h.filters ==> r.filters == h.filters + [f]
    ensures r.(filters := h.filters) == h
  {
    if f in h.filters then h else h.(filters := h.filters + [f])
  }

  /** `del records[:]` through the list the fixture hands out: the records
      go, the text stays. */
  function ClearRecords(h: Handler): (r: Handler)
    ensures r.records == []
    ensures r.(records := h.records) == h
  {
    h.(records := [])
  }

  /** The second filter point: a handler keeps a record at or above its
      level. */
  function Handle(h: Handler, rec: Record, render: Render): (r: Handler)
    ensures rec.levelno >= h.level ==> r == Emit(h, rec, render)
    ensures rec.levelno < h.level ==> r == h
  {
    if rec.levelno >= h.level then Emit(h, rec, render) else h
  }

  /** A record logged on `ref`: if the logger is enabled for it, it is
      offered to the capture handler once for each list it sits in on the
      way to the root (flat hierarchy, propagation on). */
  function Log(env: Env, ref: LoggerRef, rec: Record, render: Render): (r: Env)
    ensures r.reg == env.reg
    ensures !Enabled(env.reg, ref, rec.levelno) ==> r == env
    ensures rec.levelno < env.handler.level ==> r == env
  {
    if !Enabled(env.reg, ref, rec.levelno) then env
    else
      var id := env.handler.id;
      var h1 := if id in Get(env.reg, ref).handlers then Handle(env.handler, rec, render) else env.handler;
      var h2 := if ref != Root && id in Get(env.reg, Root).handlers then Handle(h1, rec, render) else h1;
      Env(env.reg, h2)
  }

  /** A capture handler attached only to the root keeps a record logged on
      any logger exactly when both filter points let it through. */
  lemma LogThroughRoot(env: Env, ref: LoggerRef, rec: Record, render: Render)
    requires env.handler.id in Get(env.reg, Root).handlers
    requires ref != Root ==> env.handler.id !in Get(env.reg, ref).handlers
    ensures Enabled(env.reg, ref, rec.levelno) && rec.levelno >= env.handler.level ==>
              Log(env, ref, rec, render).handler == Emit(env.handler, rec, render)
    ensures !(Enabled(env.reg, ref, rec.levelno) && rec.levelno >= env.handler.level) ==>
              Log(env, ref, rec, render) == env
  {
  }

  /** A closed handler still attached somewhere keeps the records that
      reach it, but its text no longer grows. */
  lemma ClosedHandlerWritesNothing(env: Env, ref: LoggerRef, rec: Record, render: Render)
    requires env.handler.closed
    ensures Log(env, ref, rec, render).handler.text == env.handler.text
    ensures Log(env, ref, rec, render).handler.closed
  {
  }
}

=== FILE: catchlog_config.dfy ===
/** Option handling of pytest_catchlog/plugin.py: every option has a
    command-line form and an ini-file form, the command line wins unless it
    is `None`, level settings are parsed into numbers, and the command-line
    and file handlers fall back on the general level and formats. */
module CatchLogConfig {
  import opened Base
  import opened Text
  import Capture

  const DEFAULT_LOG_FORMAT: string := "%(filename)-25s %(lineno)4d %(levelname)-8s %(message)s"
  const DEFAULT_LOG_DATE_FORMAT: string := "%H:%M:%S"

  /** The command-line values (a name that is absent was not given, which
      reads as `None`) and the ini-file values, which are always text. */
  datatype Config = Config(cli: map<string, Value>, ini: map<string, string>)

  /** The `default` of `add_option_ini`. It is handed to `addini` only, so
      an option not given on the command line reads as `None` and the ini
      lookup supplies the default. pytest's `getini` answers an ini option
      of the default type that has no entry and a `None` default with the
      empty text. */
  function IniDefault(name: string): Value {
    if name == "log_print" then VBool(true)
    else if name == "log_format" || name == "log_file_format" then VStr(DEFAULT_LOG_FORMAT)
    else if name == "log_date_format" || name == "log_file_date_format" then VStr(DEFAULT_LOG_DATE_FORMAT)
    else VStr("")
  }

  /** `config.getoption(name)` */
  function GetOption(c: Config, name: string): Value {
    if name in c.cli then c.cli[name] else VNone
  }

  /** `config.getini(name)` */
  function GetIni(c: Config, name: string): Value {
    if name in c.ini then VStr(c.ini[name]) else IniDefault(name)
  }

  /** `get_option_ini(config, name)`: the command-line value unless it is
      `None`, in which case the ini value. */
  function GetOptionIni(c: Config, name: string): (r: Value)
    ensures GetOption(c, name) != VNone ==> r == GetOption(c, name)
    ensures GetOption(c, name) == VNone ==> r == GetIni(c, name)
  {
    var ret := GetOption(c, name);
    if ret == VNone then GetIni(c, name) else ret
  }

  /** The result is never `None`. For an option without a default it is
      falsy exactly when the command line gives a falsy value, or gives
      nothing and the ini file has no non-empty entry. */
  lemma OptionIniNeverNone(c: Config, name: string)
    ensures GetOptionIni(c, name) != VNone
    ensures IniDefault(name) == VStr("") ==>
              (!Truthy(GetOptionIni(c, name)) <==>
                 || (GetOption(c, name) != VNone && !Truthy(GetOption(c, name)))
                 || (GetOption(c, name) == VNone && (name !in c.ini || c.ini[name] == "")))
  {
  }

  // ---------------------------------------------------------------------
  // Levels

  /** Upper-case attributes of the `logging` module that are level numbers. */
  function LevelByName(name: string): (r: Option<Level>)
    ensures r.Some? ==> r.value in {NOTSET, DEBUG, INFO, WARNING, ERROR, CRITICAL}
  {
    if name == "CRITICAL" || name == "FATAL" then Some(CRITICAL)
    else if name == "ERROR" then Some(ERROR)
    else if name == "WARNING" || name == "WARN" then Some(WARNING)
    else if name == "INFO" then Some(INFO)
    else if name == "DEBUG" then Some(DEBUG)
    else if name == "NOTSET" then Some(NOTSET)
    else None
  }

  datatype LevelError =
    /** `pytest.UsageError` naming the (upper-cased) value and the setting. */
    | UsageError(value: string, setting: string)
    /** A truthy non-text value: `getattr(logging, value, value)` raises a
        `TypeError` that nothing catches. */
    | NotText(setting: string)

  /** `int(getattr(logging, name, name))` for an upper-cased text value: a
      level name gives its number, a decimal numeral its value, anything
      else a usage error. */
  function ParseLevel(name: string, setting: string): (r: Result<Level, LevelError>)
    ensures r.Success? <==> LevelByName(name).Some? || IsDigits(name)
    ensures LevelByName(name).Some? ==> r == Success(LevelByName(name).value)
    ensures LevelByName(name).None? && IsDigits(name) ==> r == Success(DigitsValue(name))
    ensures r.Failure? ==> r.error == UsageError(name, setting)
  {
    match LevelByName(name)
    case Some(l) => Success(l)
    case None => if IsDigits(name) then Success(DigitsValue(name)) else Failure(UsageError(name, setting))
  }

  /** `get_actual_log_level(config, setting)`: `None` for a falsy setting,
      otherwise the parsed, upper-cased text. */
  function GetActualLogLevel(c: Config, setting: string): (r: Result<Option<Level>, LevelError>)
    ensures !Truthy(GetOptionIni(c, setting)) ==> r == Success(None)
    ensures r.Success? && r.value.Some? ==>
              GetOptionIni(c, setting).VStr? && ParseLevel(Upper(GetOptionIni(c, setting).s), setting) == Success(r.value.value)
    ensures r.Failure? ==>
              || (GetOptionIni(c, setting).VStr? && r.error == UsageError(Upper(GetOptionIni(c, setting).s), setting))
              || (GetOptionIni(c, setting) == VBool(true) && r.error == NotText(setting))
    ensures Truthy(GetOptionIni(c, setting)) ==> (r.Success? ==> r.value.Some?)
    ensures r.Failure? && GetOptionIni(c, setting).VStr? ==> ParseLevel(Upper(GetOptionIni(c, setting).s), setting).Failure?
    ensures Truthy(GetOptionIni(c, setting)) && GetOptionIni(c, setting).VStr?
              && ParseLevel(Upper(GetOptionIni(c, setting).s), setting).Success? ==>
              r == Success(Some(ParseLevel(Upper(GetOptionIni(c, setting).s), setting).value))
  {
    var v := GetOptionIni(c, setting);
    if !Truthy(v) then Success(None)
    else match v
      case VStr(s) =>
        (match ParseLevel(Upper(s), setting)
         case Success(l) => Success(Some(l))
         case Failure(e) => Failure(e))
      case _ => Failure(NotText(setting))
  }

  /** Level names are recognised in any letter case. */
  lemma LevelNameAnyCase(c: Config, setting: string, s: string)
    requires GetOptionIni(c, setting) == VStr(s)
    requires LevelByName(Upper(s)).Some?
    ensures GetActualLogLevel(c, setting) == Success(Some(LevelByName(Upper(s)).value))
  {
  }

  /** A level written as a number reads back as that number. */
  lemma NumericLevelRoundTrip(c: Config, setting: string, n: nat)
    requires GetOptionIni(c, setting) == VStr(NatToString(n))
    ensures GetActualLogLevel(c, setting) == Success(Some(n))
  {
    var s := NatToString(n);
    assert Upper(s) == s by {
      forall i | 0 <= i < |s| ensures Upper(s)[i] == s[i] {
        assert IsDigit(s[i]);
      }
    }
    assert LevelByName(s).None? by {
      assert IsDigit(s[0]);
    }
    NatToStringRoundTrip(n);
    assert ParseLevel(s, setting) == Success(n);
  }

  /** `log_cli_level`, else `log_level`, else WARNING; an unusable value
      stops configuration. */
  function CliLevel(c: Config): (r: Result<Level, LevelError>)
    ensures GetActualLogLevel(c, "log_cli_level").Failure? ==> r == Failure(GetActualLogLevel(c, "log_cli_level").error)
    ensures GetActualLogLevel(c, "log_cli_level") == Success(None) ==>
              match GetActualLogLevel(c, "log_level")
              case Failure(e) => r == Failure(e)
              case Success(None) => r == Success(WARNING)
              case Success(Some(l)) => r == Success(l)
    ensures GetActualLogLevel(c, "log_cli_level").Success? && GetActualLogLevel(c, "log_cli_level").value.Some? ==>
              r == Success(GetActualLogLevel(c, "log_cli_level").value.value)
  {
    match GetActualLogLevel(c, "log_cli_level")
    case Failure(e) => Failure(e)
    case Success(Some(l)) => Success(l)
    case Success(None) =>
      match GetActualLogLevel(c, "log_level")
      case Failure(e) => Failure(e)
      case Success(None) => Success(WARNING)
      case Success(Some(l)) => Success(l)
  }

  /** The file level: looked at only when `log_file` is set, WARNING when
      not given. */
  function FileLevel(c: Config): (r: Result<Option<Level>, LevelError>)
    ensures !Truthy(GetOptionIni(c, "log_file")) ==> r == Success(None)
    ensures Truthy(GetOptionIni(c, "log_file")) ==>
              match GetActualLogLevel(c, "log_file_level")
              case Failure(e) => r == Failure(e)
              case Success(None) => r == Success(Some(WARNING))
              case Success(Some(l)) => r == Success(Some(l))
  {
    if !Truthy(GetOptionIni(c, "log_file")) then Success(None)
    else match GetActualLogLevel(c, "log_file_level")
      case Failure(e) => Failure(e)
      case Success(None) => Success(Some(WARNING))
      case Success(Some(l)) => Success(Some(l))
  }

  // ---------------------------------------------------------------------
  // Printing switch and formats

  /** `print_logs` coercion: booleans pass through, the usual spellings of
      true and false become booleans, other text is kept as it is. */
  function CoercePrintLogs(v: Value): (r: Value)
    requires v.VBool? || v.VStr?
    ensures v.VBool? ==> r == v
    ensures v.VStr? && Lower(v.s) in ["true", "yes", "1"] ==> r == VBool(true)
    ensures v.VStr? && Lower(v.s) in ["false", "no", "0"] ==> r == VBool(false)
    ensures v.VStr? && Lower(v.s) !in ["true", "yes", "1", "false", "no", "0"] ==> r == v
  {
    match v
    case VBool(_) => v
    case VStr(s) =>
      if Lower(s) in ["true", "yes", "1"] then VBool(true)
      else if Lower(s) in ["false", "no", "0"] then VBool(false)
      else v
  }

  /** `log_print` never reads as `None` (its ini default is `True`), so
      the coercion always applies. */
  lemma PrintLogsNeverNone(c: Config)
    ensures GetOptionIni(c, "log_print").VBool? || GetOptionIni(c, "log_print").VStr?
  {
  }

  /** Coercing twice is coercing once. */
  lemma CoercePrintLogsIdempotent(v: Value)
    requires v.VBool? || v.VStr?
    ensures CoercePrintLogs(CoercePrintLogs(v)) == CoercePrintLogs(v)
  {
  }

  /** `--no-print-logs` stores `False` on the command line, which wins
      over the ini file: no section is printed. */
  lemma NoPrintLogsDisables(c: Config)
    requires GetOption(c, "log_print") == VBool(false)
    ensures !Truthy(NewPlugin(c).printLogs)
  {
  }

  /** With neither the flag nor an ini entry, printing is on. */
  lemma PrintLogsDefaultOn(c: Config)
    requires "log_print" !in c.cli && "log_print" !in c.ini
    ensures NewPlugin(c).printLogs == VBool(true)
  {
  }

  /** An ini entry spelling false in any case turns printing off. */
  lemma IniFalseDisables(c: Config, s: string)
    requires GetOption(c, "log_print") == VNone && "log_print" in c.ini && c.ini["log_print"] == s
    requires Lower(s) in ["false", "no", "0"]
    ensures NewPlugin(c).printLogs == VBool(false)
  {
  }

  /** A specific format, or the general one when the specific one is falsy
      (`None` or empty). */
  function Fallback(c: Config, specific: string, general: string): (r: Value)
    ensures Truthy(GetOptionIni(c, specific)) ==> r == GetOptionIni(c, specific)
    ensures !Truthy(GetOptionIni(c, specific)) ==> r == GetOptionIni(c, general)
    ensures Truthy(GetOptionIni(c, general)) ==> Truthy(r)
  {
    var v := GetOptionIni(c, specific);
    if Truthy(v) then v else GetOptionIni(c, general)
  }

  /** What `CatchLogPlugin.__init__` builds from the options. */
  datatype PluginSettings = PluginSettings(
    printLogs: Value,
    formatter: Capture.Formatter,
    cliFormatter: Capture.Formatter,
    fileFormatter: Option<Capture.Formatter>)

  /** `CatchLogPlugin.__init__` (the handlers themselves are I/O). */
  function NewPlugin(c: Config): (r: PluginSettings)
    ensures r.printLogs == (PrintLogsNeverNone(c); CoercePrintLogs(GetOptionIni(c, "log_print")))
    ensures r.formatter == Capture.Formatter(GetOptionIni(c, "log_format"), GetOptionIni(c, "log_date_format"))
    ensures r.cliFormatter == Capture.Formatter(Fallback(c, "log_cli_format", "log_format"),
                                                Fallback(c, "log_cli_date_format", "log_date_format"))
    ensures r.fileFormatter.Some? <==> Truthy(GetOptionIni(c, "log_file"))
    ensures r.fileFormatter.Some? ==>
              r.fileFormatter.value == Capture.Formatter(Fallback(c, "log_file_format", "log_format"),
                                                         Fallback(c, "log_file_date_format", "log_date_format"))
  {
    PrintLogsNeverNone(c);
    PluginSettings(
      CoercePrintLogs(GetOptionIni(c, "log_print")),
      Capture.Formatter(GetOptionIni(c, "log_format"), GetOptionIni(c, "log_date_format")),
      Capture.Formatter(Fallback(c, "log_cli_format", "log_format"), Fallback(c, "log_cli_date_format", "log_date_format")),
      if Truthy(GetOptionIni(c, "log_file")) then
        Some(Capture.Formatter(Fallback(c, "log_file_format", "log_format"), Fallback(c, "log_file_date_format", "log_date_format")))
      else None)
  }

  /** The outcome of `pytest_configure`. */
  datatype Session = Session(cliLevel: Level, logFile: Value, fileLevel: Option<Level>, plugin: PluginSettings)

  /** `pytest_configure`: the CLI level first, then the file level, then the
      plugin; the first unusable level setting stops it. */
  function Configure(c: Config): (r: Result<Session, LevelError>)
    ensures r.Success? <==> CliLevel(c).Success? && FileLevel(c).Success?
    ensures r.Failure? ==> r.error == (if CliLevel(c).Failure? then CliLevel(c).error else FileLevel(c).error)
    ensures r.Success? ==> (r.value.fileLevel.Some? <==> Truthy(r.value.logFile))
    ensures r.Success? ==> r.value.cliLevel == CliLevel(c).value && r.value.fileLevel == FileLevel(c).value
    ensures r.Success? ==> r.value.logFile == GetOptionIni(c, "log_file") && r.value.plugin == NewPlugin(c)
  {
    match CliLevel(c)
    case Failure(e) => Failure(e)
    case Success(cli) =>
      match FileLevel(c)
      case Failure(e) => Failure(e)
      case Success(file) => Success(Session(cli, GetOptionIni(c, "log_file"), file, NewPlugin(c)))
  }

  /** Setting `log_file_level` on the command line changes no other
      option. */
  lemma OtherOptionUnchanged(c: Config, v: Value, name: string)
    requires name != "log_file_level"
    ensures GetOptionIni(c.(cli := c.cli["log_file_level" := v]), name) == GetOptionIni(c, name)
  {
    assert GetOption(c.(cli := c.cli["log_file_level" := v]), name) == GetOption(c, name);
  }

  /** Without a log file, `log_file_level` is never parsed: even a value
      that is not a level leaves the configuration unchanged. */
  lemma FileLevelIgnoredWithoutFile(c: Config, v: Value)
    requires !Truthy(GetOptionIni(c, "log_file"))
    ensures Configure(c.(cli := c.cli["log_file_level" := v])) == Configure(c)
  {
    var c2 := c.(cli := c.cli["log_file_level" := v]);
    assert CliLevel(c2) == CliLevel(c) by {
      OtherOptionUnchanged(c, v, "log_cli_level");
      OtherOptionUnchanged(c, v, "log_level");
    }
    assert FileLevel(c2) == FileLevel(c) == Success(None) by {
      OtherOptionUnchanged(c, v, "log_file");
    }
    assert NewPlugin(c2) == NewPlugin(c) by {
      OtherOptionUnchanged(c, v, "log_print");
      OtherOptionUnchanged(c, v, "log_format");
      OtherOptionUnchanged(c, v, "log_date_format");
      OtherOptionUnchanged(c, v, "log_cli_format");
      OtherOptionUnchanged(c, v, "log_cli_date_format");
      OtherOptionUnchanged(c, v, "log_file");
    }
    OtherOptionUnchanged(c, v, "log_file");
  }
}

=== FILE: catchlog_plugin.dfy ===
/** The per-phase capture of pytest_catchlog/plugin.py: each of setup, call
    and teardown runs inside `catching_logs` with a new `LogCaptureHandler`
    on the root logger, exposes that handler on the item while the phase
    runs, and, when printing is on and the phase returned, hands the
    stripped text to the item as a report section keyed by the phase. */
module CatchLogPlugin {
  import opened Base
  import opened LogRegistry
  import opened Capture
  import opened Common
  import Text
  import CatchLogConfig

  /** `item.add_report_section(when, key, content)` */
  datatype Section = Section(when: string, key: string, content: string)

  /** The item as the plugin sees it: its `catch_log_handler` attribute
      (absent when `None`) and the report sections added so far. */
  datatype Item = Item(catchLogHandler: Option<Handler>, sections: seq<Section>)

  datatype PhaseState = PhaseState(reg: Registry, item: Item)

  /** What the phase body sees: the capture environment and the item. */
  datatype PhaseEnv = PhaseEnv(env: Env, item: Item)

  /** Entering `_runtest_for`: a new handler (identity `id`) with the
      session formatter goes through `catching_logs` on the root logger and
      is stored on the item. */
  function PhaseEnter(st: PhaseState, formatter: Formatter, id: HandlerId): (r: Entered<PhaseEnv, CatchScope>)
    ensures r.state.env.handler == NewHandler(id).(formatter := Some(formatter))
    ensures r.state.item == st.item.(catchLogHandler := Some(r.state.env.handler))
    ensures id in Get(r.state.env.reg, Root).handlers
    ensures Get(r.state.env.reg, Root).level == Min(NOTSET, Get(st.reg, Root).level)
    ensures r.scope.atLevel == LevelScope(Root, Get(st.reg, Root).level)
    ensures r.scope.using == HandlerScope(Root, id, id !in Get(st.reg, Root).handlers)
    ensures var hs := Get(st.reg, Root).handlers;
            Get(r.state.env.reg, Root).handlers == if id in hs then hs else hs + [id]
    ensures forall x :: x != Root ==> Get(r.state.env.reg, x) == Get(st.reg, x)
  {
    var e := CatchingLogsEnter(Env(st.reg, NewHandler(id)), None, Some(formatter), NOTSET, NoLogger);
    Entered(PhaseEnv(e.state, st.item.(catchLogHandler := Some(e.state.handler))), e.scope)
  }

  /** Leaving `_runtest_for` after the body ended with `run`: the attribute
      is deleted, the section is added only if the printing switch (the
      plugin's `print_logs`, tested for truth) is on and the body returned,
      and `catching_logs` is left. */
  function PhaseExit(item: Item, run: Run<Env>, scope: CatchScope, when: string, printLogs: Value): (r: PhaseState)
    ensures r.item.catchLogHandler.None?
    ensures run.outcome.Returned? && Truthy(printLogs) ==>
              r.item.sections == item.sections + [Section(when, "log", Text.Strip(run.state.handler.text))]
    ensures !(run.outcome.Returned? && Truthy(printLogs)) ==> r.item.sections == item.sections
    ensures r.reg == CatchingLogsExit(run.state, scope).reg
  {
    var item1 := item.(catchLogHandler := None);
    var item2 := if run.outcome.Returned? && Truthy(printLogs)
                 then item1.(sections := item1.sections + [Section(when, "log", Text.Strip(run.state.handler.text))])
                 else item1;
    PhaseState(CatchingLogsExit(run.state, scope).reg, item2)
  }

  /** `with self._runtest_for(item, when): body` */
  function RunTestFor(st: PhaseState, formatter: Formatter, printLogs: Value, when: string, id: HandlerId,
                      body: PhaseEnv -> Run<Env>): (r: Run<PhaseState>)
    ensures r.outcome == body(PhaseEnter(st, formatter, id).state).outcome
    ensures r.state.item.catchLogHandler.None?
    ensures Get(r.state.reg, Root).level == Get(st.reg, Root).level
    ensures !(r.outcome.Returned? && Truthy(printLogs)) ==> r.state.item.sections == st.item.sections
    ensures r.outcome.Returned? && Truthy(printLogs) ==>
              r.state.item.sections == st.item.sections
                + [Section(when, "log", Text.Strip(body(PhaseEnter(st, formatter, id).state).state.handler.text))]
  {
    var e := PhaseEnter(st, formatter, id);
    var run := body(e.state);
    Run(PhaseExit(e.state.item, run, e.scope, when, printLogs), run.outcome)
  }

  /** A phase body that leaves the root logger's handler list alone ends
      with the root logger exactly as before the phase, even if it raised. */
  lemma RunTestForRestoresRoot(st: PhaseState, formatter: Formatter, printLogs: Value, when: string, id: HandlerId,
                               body: PhaseEnv -> Run<Env>)
    requires id !in Get(st.reg, Root).handlers
    requires var e := PhaseEnter(st, formatter, id).state;
             Get(body(e).state.reg, Root).handlers == Get(e.env.reg, Root).handlers
    ensures Get(RunTestFor(st, formatter, printLogs, when, id, body).state.reg, Root) == Get(st.reg, Root)
  {
    RemoveAppended(Get(st.reg, Root).handlers, id);
  }

  /** With `--no-print-logs` on the command line, the plugin that
      `pytest_configure` builds adds no section for any phase, whatever the
      body does and whatever the ini file says. */
  lemma NoPrintLogsNoSection(c: CatchLogConfig.Config, st: PhaseState, when: string, id: HandlerId,
                             body: PhaseEnv -> Run<Env>)
    requires CatchLogConfig.GetOption(c, "log_print") == VBool(false)
    ensures var plugin := CatchLogConfig.NewPlugin(c);
            RunTestFor(st, plugin.formatter, plugin.printLogs, when, id, body).state.item.sections == st.item.sections
  {
    CatchLogConfig.NoPrintLogsDisables(c);
  }

  /** A phase body that logs `rs` straight into the handler it finds on the
      item and returns. */
  function EmittingBody(rs: seq<Record>, render: Render): PhaseEnv -> Run<Env> {
    (pe: PhaseEnv) => Run(pe.env.(handler := EmitAll(pe.env.handler, rs, render)), Returned)
  }

  /** One phase whose body logs `rs` and returns: its section holds the
      stripped rendering of exactly `rs`, since the handler starts empty. */
  lemma EmittingPhaseSection(st: PhaseState, formatter: Formatter, when: string, id: HandlerId,
                             rs: seq<Record>, render: Render)
    ensures var r := RunTestFor(st, formatter, VBool(true), when, id, EmittingBody(rs, render));
            && r.outcome == Returned
            && r.state.item.catchLogHandler.None?
            && r.state.item.sections == st.item.sections + [Section(when, "log", Text.Strip(Rendered(rs, Some(formatter), render)))]
  {
    var e := PhaseEnter(st, formatter, id).state;
    FreshHandlerText(NewHandler(id).(formatter := Some(formatter)), rs, render);
    assert EmittingBody(rs, render)(e).state.handler.text == Rendered(rs, Some(formatter), render);
  }

  /** An open handler that has written nothing ends up holding exactly the
      renderings of what it emits. */
  lemma FreshHandlerText(h: Handler, rs: seq<Record>, render: Render)
    requires !h.closed && h.text == []
    ensures EmitAll(h, rs, render).text == Rendered(rs, h.formatter, render)
  {
    assert [] + Rendered(rs, h.formatter, render) == Rendered(rs, h.formatter, render);
  }

  /** One hook of a test: the phase name, the identity of the handler
      created for it and the records its body logs. */
  datatype Phase = Phase(when: string, id: HandlerId, records: seq<Record>)

  /** The section a phase of `RunPhases` should add. */
  function ExpectedSection(p: Phase, formatter: Formatter, render: Render): Section {
    Section(p.when, "log", Text.Strip(Rendered(p.records, Some(formatter), render)))
  }

  /** One hook of `RunPhases`: printing on, the body logs the phase's
      records and returns. */
  function Step(st: PhaseState, formatter: Formatter, render: Render, p: Phase): (r: PhaseState)
    ensures r.item.sections == st.item.sections + [ExpectedSection(p, formatter, render)]
    ensures r.item.catchLogHandler.None?
  {
    EmittingPhaseSection(st, formatter, p.when, p.id, p.records, render);
    RunTestFor(st, formatter, VBool(true), p.when, p.id, EmittingBody(p.records, render)).state
  }

  /** Phases run one after the other, each through `step`. */
  function RunPhasesBy(st: PhaseState, ps: seq<Phase>, step: (PhaseState, Phase) -> PhaseState): PhaseState
    decreases |ps|
  {
    if ps == [] then st else RunPhasesBy(step(st, ps[0]), ps[1..], step)
  }

  /** The hooks run one after the other, printing on, every body returning. */
  function RunPhases(st: PhaseState, formatter: Formatter, render: Render, ps: seq<Phase>): PhaseState {
    RunPhasesBy(st, ps, (s: PhaseState, p: Phase) => Step(s, formatter, render, p))
  }

  /** One section per phase, in phase order. */
  function SectionsBy(ps: seq<Phase>, sect: Phase -> Section): (r: seq<Section>)
    ensures |r| == |ps|
    decreases |ps|
  {
    if ps == [] then [] else [sect(ps[0])] + SectionsBy(ps[1..], sect)
  }

  /** The sections `RunPhases` should add, one per phase, in order. */
  function ExpectedSections(ps: seq<Phase>, formatter: Formatter, render: Render): seq<Section> {
    SectionsBy(ps, (p: Phase) => ExpectedSection(p, formatter, render))
  }

  /** A step adding one section per phase, run over `ps`, adds the
      sections in phase order. */
  lemma {:induction false} RunPhasesBySections(st: PhaseState, ps: seq<Phase>, step: (PhaseState, Phase) -> PhaseState,
                                               sect: Phase -> Section)
    requires forall s, p :: step(s, p).item.sections == s.item.sections + [sect(p)]
    ensures RunPhasesBy(st, ps, step).item.sections == st.item.sections + SectionsBy(ps, sect)
    decreases |ps|
  {
    if ps != [] {
      var r := step(st, ps[0]);
      RunPhasesBySections(r, ps[1..], step, sect);
      assert SectionsBy(ps, sect) == [sect(ps[0])] + SectionsBy(ps[1..], sect);
      assert r.item.sections == st.item.sections + [sect(ps[0])];
    }
  }

  /** Every phase adds one section, in order, under its own name, holding
      only the text logged during that phase: each handler starts empty. */
  lemma RunPhasesSections(st: PhaseState, formatter: Formatter, render: Render, ps: seq<Phase>)
    ensures RunPhases(st, formatter, render, ps).item.sections == st.item.sections + ExpectedSections(ps, formatter, render)
  {
    RunPhasesBySections(st, ps, (s: PhaseState, p: Phase) => Step(s, formatter, render, p),
                        (p: Phase) => ExpectedSection(p, formatter, render));
  }

  /** A step that always deletes the attribute leaves none behind once at
      least one phase ran. */
  lemma {:induction false} RunPhasesByClearsAttribute(st: PhaseState, ps: seq<Phase>, step: (PhaseState, Phase) -> PhaseState)
    requires ps != []
    requires forall s, p :: step(s, p).item.catchLogHandler.None?
    ensures RunPhasesBy(st, ps, step).item.catchLogHandler.None?
    decreases |ps|
  {
    if ps[1..] != [] {
      RunPhasesByClearsAttribute(step(st, ps[0]), ps[1..], step);
    }
  }

  /** After at least one hook no handler is left on the item. */
  lemma RunPhasesClearsAttribute(st: PhaseState, formatter: Formatter, render: Render, ps: seq<Phase>)
    requires ps != []
    ensures RunPhases(st, formatter, render, ps).item.catchLogHandler.None?
  {
    RunPhasesByClearsAttribute(st, ps, (s: PhaseState, p: Phase) => Step(s, formatter, render, p));
  }

  /** The sections of three phases, spelled out. */
  lemma SectionsOfThree(a: Phase, b: Phase, c: Phase, sect: Phase -> Section)
    ensures SectionsBy([a, b, c], sect) == [sect(a), sect(b), sect(c)]
  {
    assert [a, b, c][1..] == [b, c];
    assert [b, c][1..] == [c];
    assert [c][1..] == [];
    assert SectionsBy([c], sect) == [sect(c)];
    assert SectionsBy([b, c], sect) == [sect(b)] + [sect(c)];
  }

  /** `pytest_runtest_setup`, `pytest_runtest_call` and
      `pytest_runtest_teardown`, each with its own handler, give three
      sections, one per hook, in hook order. */
  lemma SetupCallTeardownSections(st: PhaseState, formatter: Formatter, render: Render, setup: Phase, call: Phase, teardown: Phase)
    ensures RunPhases(st, formatter, render, [setup, call, teardown]).item.sections
         == st.item.sections + [ExpectedSection(setup, formatter, render), ExpectedSection(call, formatter, render),
                                ExpectedSection(teardown, formatter, render)]
  {
    RunPhasesSections(st, formatter, render, [setup, call, teardown]);
    SectionsOfThree(setup, call, teardown, (p: Phase) => ExpectedSection(p, formatter, render));
  }

  /** A phase that raised adds no section even with printing on, and the
      attribute is gone all the same. */
  lemma RaisingPhaseNoSection(st: PhaseState, formatter: Formatter, when: string, id: HandlerId, err: string,
                              rs: seq<Record>, render: Render)
    ensures var body := (pe: PhaseEnv) => Run(pe.env.(handler := EmitAll(pe.env.handler, rs, render)), Raised(err));
            var r := RunTestFor(st, formatter, VBool(true), when, id, body);
            && r.outcome == Raised(err)
            && r.state.item.sections == st.item.sections
            && r.state.item.catchLogHandler.None?
  {
  }
}

=== FILE: common.dfy ===
/** The scoped helpers of pytest_catchlog/common.py, each written as an
    entry transition that returns the state plus what the scope saved, an
    exit transition that undoes it, and a combinator that runs a body in
    between. The exit runs whatever way the body left (the helpers use
    `try/finally`), and the body's outcome passes through unchanged. */
module Common {
  import opened Base
  import opened LogRegistry
  import opened Capture

  /** A state after entering a scope, with what the exit needs. */
  datatype Entered<S, K> = Entered(state: S, scope: K)

  /** `get_logger_obj(logger)`: `None` or a name is looked up, a logger
      object is used as is. */
  function GetLoggerObj(arg: LoggerArg): (r: LoggerRef)
    ensures arg.NoLogger? ==> r == Root
    ensures arg.ByName? ==> r == GetLogger(Some(arg.name))
    ensures arg.ByObject? ==> r == arg.logger
  {
    match arg
    case NoLogger => GetLogger(None)
    case ByName(n) => GetLogger(Some(n))
    case ByObject(l) => l
  }

  // ---------------------------------------------------------------------
  // logging_at_level

  datatype LevelScope = LevelScope(logger: LoggerRef, origLevel: Level)

  function AtLevelEnter(reg: Registry, level: Level, arg: LoggerArg): (r: Entered<Registry, LevelScope>)
    ensures r.scope == LevelScope(GetLoggerObj(arg), Get(reg, GetLoggerObj(arg)).level)
    ensures Get(r.state, GetLoggerObj(arg)).level == level
    ensures Get(r.state, GetLoggerObj(arg)).handlers == Get(reg, GetLoggerObj(arg)).handlers
    ensures forall x :: x != GetLoggerObj(arg) ==> Get(r.state, x) == Get(reg, x)
  {
    var ref := GetLoggerObj(arg);
    Entered(SetLevel(reg, ref, level), LevelScope(ref, Get(reg, ref).level))
  }

  function AtLevelExit(reg: Registry, scope: LevelScope): (r: Registry)
    ensures Get(r, scope.logger) == LoggerState(scope.origLevel, Get(reg, scope.logger).handlers)
    ensures forall x :: x != scope.logger ==> Get(r, x) == Get(reg, x)
  {
    SetLevel(reg, scope.logger, scope.origLevel)
  }

  /** `with logging_at_level(level, logger): body` */
  function LoggingAtLevel(reg: Registry, level: Level, arg: LoggerArg, body: Registry -> Run<Registry>): (r: Run<Registry>)
    ensures r.outcome == body(AtLevelEnter(reg, level, arg).state).outcome
    ensures Get(r.state, GetLoggerObj(arg)).level == Get(reg, GetLoggerObj(arg)).level
  {
    var e := AtLevelEnter(reg, level, arg);
    var run := body(e.state);
    Run(AtLevelExit(run.state, e.scope), run.outcome)
  }

  /** Leaving the scope straight after entering it gives back the entry
      state exactly. */
  lemma AtLevelRoundTrip(reg: Registry, level: Level, arg: LoggerArg)
    ensures AtLevelExit(AtLevelEnter(reg, level, arg).state, AtLevelEnter(reg, level, arg).scope)
            == Materialize(reg, GetLoggerObj(arg))
  {
    var ref := GetLoggerObj(arg);
    var r := AtLevelExit(AtLevelEnter(reg, level, arg).state, AtLevelEnter(reg, level, arg).scope);
    var m := Materialize(reg, ref);
    assert r.Keys == m.Keys;
    forall x | x in r ensures r[x] == m[x] {
      assert Get(r, x) == Get(m, x);
    }
  }

  /** Nested scopes on one logger unwind last-in first-out: leaving the
      inner scope reinstates the level in force when it was entered (in
      `mid`, whatever the outer body did before entering it), and leaving
      the outer scope, whatever the outer body did after, reinstates the
      original level. */
  lemma NestedAtLevelLifo(reg: Registry, outer: Level, inner: Level, arg: LoggerArg,
                          mid: Registry, innerBody: Registry -> Registry, outerRest: Registry -> Registry)
    ensures var e1 := AtLevelEnter(reg, outer, arg);
            var e2 := AtLevelEnter(mid, inner, arg);
            var r3 := AtLevelExit(innerBody(e2.state), e2.scope);
            && Get(r3, GetLoggerObj(arg)).level == Get(mid, GetLoggerObj(arg)).level
            && Get(AtLevelExit(outerRest(r3), e1.scope), GetLoggerObj(arg)).level
               == Get(reg, GetLoggerObj(arg)).level
  {
  }

  // ---------------------------------------------------------------------
  // logging_using_handler

  /** `added` records whether the entry attached the handler (it did not
      when the handler was already in the logger's list). */
  datatype HandlerScope = HandlerScope(logger: LoggerRef, handler: HandlerId, added: bool)

  function UsingHandlerEnter(reg: Registry, h: HandlerId, arg: LoggerArg): (r: Entered<Registry, HandlerScope>)
    ensures r.scope.logger == GetLoggerObj(arg) && r.scope.handler == h
    ensures r.scope.added <==> h !in Get(reg, GetLoggerObj(arg)).handlers
    ensures !r.scope.added ==> r.state == Materialize(reg, GetLoggerObj(arg))
    ensures r.scope.added ==> Get(r.state, GetLoggerObj(arg)).handlers == Get(reg, GetLoggerObj(arg)).handlers + [h]
    ensures Get(r.state, GetLoggerObj(arg)).level == Get(reg, GetLoggerObj(arg)).level
    ensures forall x :: x != GetLoggerObj(arg) ==> Get(r.state, x) == Get(reg, x)
  {
    var ref := GetLoggerObj(arg);
    if h in Get(reg, ref).handlers then Entered(Materialize(reg, ref), HandlerScope(ref, h, false))
    else Entered(AddHandler(reg, ref, h), HandlerScope(ref, h, true))
  }

  function UsingHandlerExit(reg: Registry, scope: HandlerScope): (r: Registry)
    ensures !scope.added ==> r == reg
    ensures scope.added ==> Get(r, scope.logger).handlers == RemoveFirst(Get(reg, scope.logger).handlers, scope.handler)
    ensures Get(r, scope.logger).level == Get(reg, scope.logger).level
    ensures forall x :: x != scope.logger ==> Get(r, x) == Get(reg, x)
  {
    if scope.added then RemoveHandler(reg, scope.logger, scope.handler) else reg
  }

  /** `with logging_using_handler(h, logger): body` */
  function LoggingUsingHandler(reg: Registry, h: HandlerId, arg: LoggerArg, body: Registry -> Run<Registry>): (r: Run<Registry>)
    ensures r.outcome == body(UsingHandlerEnter(reg, h, arg).state).outcome
    ensures h in Get(reg, GetLoggerObj(arg)).handlers ==> r == body(Materialize(reg, GetLoggerObj(arg)))
  {
    var e := UsingHandlerEnter(reg, h, arg);
    var run := body(e.state);
    Run(UsingHandlerExit(run.state, e.scope), run.outcome)
  }

  /** Whether or not the handler was attached beforehand, entering and
      leaving straight away changes nothing, and the handler is attached
      in between. */
  lemma UsingHandlerRoundTrip(reg: Registry, h: HandlerId, arg: LoggerArg)
    ensures var e := UsingHandlerEnter(reg, h, arg);
            && h in Get(e.state, GetLoggerObj(arg)).handlers
            && UsingHandlerExit(e.state, e.scope) == Materialize(reg, GetLoggerObj(arg))
  {
    var ref := GetLoggerObj(arg);
    var e := UsingHandlerEnter(reg, h, arg);
    var r := UsingHandlerExit(e.state, e.scope);
    var m := Materialize(reg, ref);
    if e.scope.added {
      RemoveAppended(Get(reg, ref).handlers, h);
    }
    assert r.Keys == m.Keys;
    forall x | x in r ensures r[x] == m[x] {
      assert Get(r, x) == Get(m, x);
    }
  }

  /** A body that leaves the logger's handler list as it found it — and
      that may have raised — leaves the list as it was before the scope. */
  lemma UsingHandlerRestores(reg: Registry, h: HandlerId, arg: LoggerArg, body: Registry -> Run<Registry>)
    requires var s := UsingHandlerEnter(reg, h, arg).state;
             Get(body(s).state, GetLoggerObj(arg)).handlers == Get(s, GetLoggerObj(arg)).handlers
    ensures Get(LoggingUsingHandler(reg, h, arg, body).state, GetLoggerObj(arg)).handlers
            == Get(reg, GetLoggerObj(arg)).handlers
  {
    var ref := GetLoggerObj(arg);
    if h !in Get(reg, ref).handlers {
      RemoveAppended(Get(reg, ref).handlers, h);
    }
  }

  // ---------------------------------------------------------------------
  // catching_logs

  datatype CatchScope = CatchScope(using: HandlerScope, atLevel: LevelScope)

  /** Configure the handler (filter and formatter only when given, level
      always), attach it, then lower the logger to the smaller of the
      handler's and its own level. */
  function CatchingLogsEnter(env: Env, filter: Option<FilterId>, formatter: Option<Formatter>,
                             level: Level, arg: LoggerArg): (r: Entered<Env, CatchScope>)
    ensures var ref := GetLoggerObj(arg);
            && r.state.handler.level == level
            && Get(r.state.reg, ref).level == Min(level, Get(env.reg, ref).level)
            && r.state.handler.id in Get(r.state.reg, ref).handlers
            && r.scope.atLevel == LevelScope(ref, Get(env.reg, ref).level)
            && r.scope.using == HandlerScope(ref, env.handler.id, env.handler.id !in Get(env.reg, ref).handlers)
    ensures filter.None? ==> r.state.handler.filters == env.handler.filters
    ensures filter.Some? ==> r.state.handler.filters == AddFilter(env.handler, filter.value).filters
    ensures formatter.None? ==> r.state.handler.formatter == env.handler.formatter
    ensures formatter.Some? ==> r.state.handler.formatter == formatter
    ensures r.state.handler.(level := env.handler.level, filters := env.handler.filters, formatter := env.handler.formatter) == env.handler
    ensures var hs := Get(env.reg, GetLoggerObj(arg)).handlers;
            Get(r.state.reg, GetLoggerObj(arg)).handlers == if env.handler.id in hs then hs else hs + [env.handler.id]
    ensures forall x :: x != GetLoggerObj(arg) ==> Get(r.state.reg, x) == Get(env.reg, x)
  {
    var h1 := if filter.Some? then AddFilter(env.handler, filter.value) else env.handler;
    var h2 := if formatter.Some? then h1.(formatter := formatter) else h1;
    var h3 := SetHandlerLevel(h2, level);
    var ref := GetLoggerObj(arg);
    var u := UsingHandlerEnter(env.reg, h3.id, ByObject(ref));
    var a := AtLevelEnter(u.state, Min(h3.level, Get(u.state, ref).level), ByObject(ref));
    Entered(Env(a.state, h3), CatchScope(u.scope, a.scope))
  }

  /** Tear down in reverse: restore the level, detach the handler (unless it
      was attached before), close it. */
  function CatchingLogsExit(env: Env, scope: CatchScope): (r: Env)
    ensures r.handler == Close(env.handler)
    ensures r.reg == UsingHandlerExit(AtLevelExit(env.reg, scope.atLevel), scope.using)
  {
    Env(UsingHandlerExit(AtLevelExit(env.reg, scope.atLevel), scope.using), Close(env.handler))
  }

  /** `with catching_logs(handler, filter, formatter, level, logger): body` */
  function CatchingLogs(env: Env, filter: Option<FilterId>, formatter: Option<Formatter>, level: Level,
                        arg: LoggerArg, body: Env -> Run<Env>): (r: Run<Env>)
    ensures r.outcome == body(CatchingLogsEnter(env, filter, formatter, level, arg).state).outcome
    ensures r.state.handler.closed
    ensures Get(r.state.reg, GetLoggerObj(arg)).level == Get(env.reg, GetLoggerObj(arg)).level
  {
    var e := CatchingLogsEnter(env, filter, formatter, level, arg);
    var run := body(e.state);
    Run(CatchingLogsExit(run.state, e.scope), run.outcome)
  }

  /** Whatever way the body leaves, if it left the logger's handler list as
      it found it, the logger ends exactly as it started (level and
      handlers) and the handler is closed. */
  lemma CatchingLogsRestores(env: Env, filter: Option<FilterId>, formatter: Option<Formatter>, level: Level,
                             arg: LoggerArg, body: Env -> Run<Env>)
    requires var s := CatchingLogsEnter(env, filter, formatter, level, arg).state;
             Get(body(s).state.reg, GetLoggerObj(arg)).handlers == Get(s.reg, GetLoggerObj(arg)).handlers
    ensures var r := CatchingLogs(env, filter, formatter, level, arg, body);
            && Get(r.state.reg, GetLoggerObj(arg)) == Get(env.reg, GetLoggerObj(arg))
            && r.state.handler.closed
  {
    var ref := GetLoggerObj(arg);
    if env.handler.id !in Get(env.reg, ref).handlers {
      RemoveAppended(Get(env.reg, ref).handlers, env.handler.id);
    }
  }

  /** Re-entering with a handler the logger already holds: the exit closes
      the handler but leaves it attached, so a record logged afterwards
      still reaches it and is kept, while nothing more is written. */
  lemma ReentrantLeavesClosedHandler(env: Env, filter: Option<FilterId>, formatter: Option<Formatter>, level: Level,
                                     arg: LoggerArg, body: Env -> Run<Env>, rec: Record, render: Render)
    requires env.handler.id in Get(env.reg, GetLoggerObj(arg)).handlers
    requires var s := CatchingLogsEnter(env, filter, formatter, level, arg).state;
             Get(body(s).state.reg, GetLoggerObj(arg)).handlers == Get(s.reg, GetLoggerObj(arg)).handlers
    requires var s := CatchingLogsEnter(env, filter, formatter, level, arg).state;
             body(s).state.handler.id == s.handler.id
    ensures var r := CatchingLogs(env, filter, formatter, level, arg, body).state;
            && r.handler.id in Get(r.reg, GetLoggerObj(arg)).handlers
            && r.handler.closed
            && Log(r, GetLoggerObj(arg), rec, render).handler.text == r.handler.text
  {
    CatchingLogsRestores(env, filter, formatter, level, arg, body);
    var r := CatchingLogs(env, filter, formatter, level, arg, body).state;
    assert r.handler.id == env.handler.id by {
      assert CatchingLogsEnter(env, filter, formatter, level, arg).state.handler.id == env.handler.id;
    }
    ClosedHandlerWritesNothing(r, GetLoggerObj(arg), rec, render);
  }
}

=== FILE: funcarg.dfy ===
/** The `caplog` fixture object of the single-module revisions
    (`CatchLogFuncArg` in pytest_catchlog.py and `CaptureLogFuncArg` in
    pytest_capturelog.py): read access to the capture handler, and a level
    control whose target is either that handler or a named logger. The
    older class spells the level methods `setLevel`/`atLevel` and has no
    `record_tuples`. */
module FuncArg {
  import opened Base
  import opened LogRegistry
  import opened Capture
  import Common

  /** The object whose level is set: the capture handler or a logger. */
  datatype LevelTarget = HandlerTarget | LoggerTarget(logger: LoggerRef)

  /** `logger and logging.getLogger(logger) or self.handler`: a non-empty
      name picks that logger, `None` and `''` pick the handler. */
  function Target(logger: Option<string>): (t: LevelTarget)
    ensures t.HandlerTarget? <==> logger == None || logger == Some([])
    ensures t.LoggerTarget? ==> t.logger == Named(logger.value)
  {
    match logger
    case None => HandlerTarget
    case Some(n) => if n == [] then HandlerTarget else LoggerTarget(GetLogger(Some(n)))
  }

  /** `obj.level` */
  function LevelOf(env: Env, t: LevelTarget): Level {
    match t
    case HandlerTarget => env.handler.level
    case LoggerTarget(ref) => Get(env.reg, ref).level
  }

  /** `obj.setLevel(level)` */
  function SetTargetLevel(env: Env, t: LevelTarget, level: Level): (r: Env)
    ensures LevelOf(r, t) == level
    ensures t.HandlerTarget? ==> r.reg == env.reg && r.handler == SetHandlerLevel(env.handler, level)
    ensures t.LoggerTarget? ==> r.handler == env.handler && r.reg == SetLevel(env.reg, t.logger, level)
  {
    match t
    case HandlerTarget => Env(env.reg, SetHandlerLevel(env.handler, level))
    case LoggerTarget(ref) => Env(SetLevel(env.reg, ref, level), env.handler)
  }

  /** `set_level(level, logger=None)` (`setLevel` in pytest_capturelog.py). */
  function SetLevelOf(env: Env, level: Level, logger: Option<string>): (r: Env)
    ensures LevelOf(r, Target(logger)) == level
    ensures logger == None || logger == Some([]) ==>
              r.reg == env.reg && r.handler == SetHandlerLevel(env.handler, level)
    ensures logger.Some? && logger.value != [] ==>
              && r.handler == env.handler
              && Get(r.reg, Named(logger.value)) == Get(env.reg, Named(logger.value)).(level := level)
              && (forall x :: x != Named(logger.value) ==> Get(r.reg, x) == Get(env.reg, x))
  {
    SetTargetLevel(env, Target(logger), level)
  }

  /** The `CatchLogLevel` context manager once entered: its target and the
      level saved from it. */
  datatype LevelOverride = LevelOverride(target: LevelTarget, origLevel: Level)

  /** `at_level(level, logger).__enter__()` */
  function AtLevelEnter(env: Env, level: Level, logger: Option<string>): (r: Common.Entered<Env, LevelOverride>)
    ensures r.scope == LevelOverride(Target(logger), LevelOf(env, Target(logger)))
    ensures r.state == SetLevelOf(env, level, logger)
  {
    var t := Target(logger);
    Common.Entered(SetTargetLevel(env, t, level), LevelOverride(t, LevelOf(env, t)))
  }

  /** `__exit__`: put the saved level back. It returns nothing, so an
      exception leaving the body is not suppressed. */
  function AtLevelExit(env: Env, o: LevelOverride): (r: Env)
    ensures LevelOf(r, o.target) == o.origLevel
    ensures o.target.HandlerTarget? ==> r.reg == env.reg && r.handler.(level := env.handler.level) == env.handler
    ensures o.target.LoggerTarget? ==>
              && r.handler == env.handler
              && Get(r.reg, o.target.logger) == Get(env.reg, o.target.logger).(level := o.origLevel)
              && (forall x :: x != o.target.logger ==> Get(r.reg, x) == Get(env.reg, x))
  {
    SetTargetLevel(env, o.target, o.origLevel)
  }

  /** `with caplog.at_level(level, logger): body` */
  function AtLevel(env: Env, level: Level, logger: Option<string>, body: Env -> Run<Env>): (r: Run<Env>)
    ensures r.outcome == body(SetLevelOf(env, level, logger)).outcome
    ensures LevelOf(r.state, Target(logger)) == LevelOf(env, Target(logger))
  {
    var e := AtLevelEnter(env, level, logger);
    var run := body(e.state);
    Run(AtLevelExit(run.state, e.scope), run.outcome)
  }

  /** Two overrides nest LIFO on the same target: leaving the inner one
      brings back the level in force when it was entered (after whatever
      the outer body did first), and leaving the outer one, whatever the
      outer body did after the inner one, brings back the original level. */
  lemma NestedOverridesLifo(env: Env, outer: Level, inner: Level, logger: Option<string>,
                            before: Env -> Env, innerBody: Env -> Env, after: Env -> Env)
    ensures var e1 := AtLevelEnter(env, outer, logger);
            var mid := before(e1.state);
            var e2 := AtLevelEnter(mid, inner, logger);
            var r2 := AtLevelExit(innerBody(e2.state), e2.scope);
            && LevelOf(r2, Target(logger)) == LevelOf(mid, Target(logger))
            && LevelOf(AtLevelExit(after(r2), e1.scope), Target(logger)) == LevelOf(env, Target(logger))
  {
  }

  /** `records()` hands out the handler's own list. */
  function Records(env: Env): seq<Record> {
    env.handler.records
  }

  /** `text()` */
  function Text(env: Env): string {
    env.handler.text
  }

  /** `(logger name, level number, message)` of one record. */
  datatype RecordTuple = RecordTuple(name: string, levelno: Level, message: string)

  function TupleOf(rec: Record): RecordTuple {
    RecordTuple(rec.name, rec.levelno, rec.message)
  }

  /** `record_tuples()` (pytest_catchlog.py only): one tuple per record, in
      the same order. */
  function RecordTuples(rs: seq<Record>): (r: seq<RecordTuple>)
    ensures |r| == |rs|
    ensures forall i :: 0 <= i < |rs| ==> r[i] == TupleOf(rs[i])
  {
    seq(|rs|, i requires 0 <= i < |rs| => TupleOf(rs[i]))
  }

  /** Records emitted after the fixture was read show up at the end of
      `record_tuples`, one tuple each, in emission order. */
  lemma RecordTuplesAfterEmits(h: Handler, rs: seq<Record>, render: Render)
    ensures RecordTuples(EmitAll(h, rs, render).records) == RecordTuples(h.records) + RecordTuples(rs)
  {
    assert EmitAll(h, rs, render).records == h.records + rs;
  }

  /** Clearing the list returned by `records()` empties the capture, and
      later records land in that same, emptied list; the text is kept. */
  lemma ClearThenEmit(h: Handler, rs: seq<Record>, render: Render)
    ensures EmitAll(ClearRecords(h), rs, render).records == rs
    ensures !h.closed ==> EmitAll(ClearRecords(h), rs, render).text == h.text + Rendered(rs, h.formatter, render)
    ensures h.closed ==> EmitAll(ClearRecords(h), rs, render).text == h.text
  {
  }

  /** The scenario of `test_change_level`: with the capture handler on the
      root logger at NOTSET, `set_level(INFO)` on the handler drops a DEBUG
      record of logger `m`, and `set_level(CRITICAL, 'm.baz')` makes logger
      `m.baz` drop a WARNING record, so only the INFO and CRITICAL records
      are kept. */
  lemma ChangeLevelScenario(env: Env, render: Render, debug: Record, info: Record, warning: Record, critical: Record)
    requires env.handler.id in Get(env.reg, Root).handlers
    requires Get(env.reg, Root).level == NOTSET
    requires env.handler.id !in Get(env.reg, Named("m")).handlers
    requires env.handler.id !in Get(env.reg, Named("m.baz")).handlers
    requires Get(env.reg, Named("m")).level == NOTSET
    requires debug.levelno == DEBUG && info.levelno == INFO
    requires warning.levelno == WARNING && critical.levelno == CRITICAL
    ensures var e1 := SetLevelOf(env, INFO, None);
            var e2 := Log(Log(e1, Named("m"), debug, render), Named("m"), info, render);
            var e3 := SetLevelOf(e2, CRITICAL, Some("m.baz"));
            var e4 := Log(Log(e3, Named("m.baz"), warning, render), Named("m.baz"), critical, render);
            Records(e4) == env.handler.records + [info, critical]
  {
    var e1 := SetLevelOf(env, INFO, None);
    var e2a := Log(e1, Named("m"), debug, render);
    assert e2a == e1;
    var e2 := Log(e2a, Named("m"), info, render);
    assert e2.handler.records == env.handler.records + [info];
    var e3 := SetLevelOf(e2, CRITICAL, Some("m.baz"));
    assert Get(e3.reg, Named("m.baz")).level == CRITICAL;
    var e4a := Log(e3, Named("m.baz"), warning, render);
    assert e4a == e3;
    var e4 := Log(e4a, Named("m.baz"), critical, render);
    assert e4.handler.records == e3.handler.records + [critical];
  }
}

=== FILE: legacy_capturelog.dfy ===
/** The original pytest_capturelog.py. Its handler and `caplog` object are
    the same code as pytest_catchlog.py's (modules Capture and FuncArg); it
    differs in having an on/off switch for the whole plugin and no printing
    switch: a failed report always receives the captured text. */
module LegacyCaptureLog {
  import opened Base
  import opened LogRegistry
  import opened Capture
  import opened Report
  import Text
  import LegacyCatchLog

  /** `CaptureLogPlugin`: only the shared formatter. */
  datatype Plugin = Plugin(formatter: Formatter)

  /** The item attribute that holds the test's handler. */
  const HandlerAttribute: string := "capturelog_handler"

  /** `pytest_configure`: the plugin is registered only when capturing is
      on (`--nocapturelog` turns it off). */
  function Configure(capturelog: bool, logFormat: Value, logDateFormat: Value): (r: Option<Plugin>)
    ensures r.Some? <==> capturelog
    ensures r.Some? ==> r.value.formatter == Formatter(logFormat, logDateFormat)
  {
    if capturelog then Some(Plugin(Formatter(logFormat, logDateFormat))) else None
  }

  /** `pytest_runtest_setup`, identical to the later revision's. */
  function Setup(p: Plugin, st: LegacyCatchLog.State, id: HandlerId): (r: LegacyCatchLog.State)
    ensures r.handler == Some(NewHandler(id).(formatter := Some(p.formatter)))
    ensures Get(r.reg, Root).level == NOTSET
    ensures id !in Get(st.reg, Root).handlers ==> Get(r.reg, Root).handlers == Get(st.reg, Root).handlers + [id]
    ensures id in Get(r.reg, Root).handlers
    ensures id in Get(st.reg, Root).handlers ==> Get(r.reg, Root).handlers == Get(st.reg, Root).handlers
    ensures forall x :: x != Root ==> Get(r.reg, x) == Get(st.reg, x)
  {
    LegacyCatchLog.Setup(st, p.formatter, id)
  }

  /** `pytest_runtest_makereport`: the shared report hook with printing
      always on and the `capturelog_handler` attribute. At 'call' the
      handler is always detached and closed; a 'Captured log' section is
      added exactly when the report did not pass, its representation
      accepts sections and the stripped text is not empty. */
  function MakeReport(p: Plugin, st: LegacyCatchLog.State, when: string, report: TestReport)
    : (r: Result<LegacyCatchLog.Reported, string>)
    ensures r == LegacyCatchLog.MakeReportWith(st, when, report, true, HandlerAttribute)
    ensures when != "call" ==> r == Success(LegacyCatchLog.Reported(st, report, None))
    ensures when == "call" && st.handler.None? ==> r == Failure("AttributeError: " + HandlerAttribute)
    ensures when == "call" && st.handler.Some? ==>
              && r.Success?
              && r.value.state.handler.None?
              && r.value.released == Some(Close(st.handler.value))
              && Get(r.value.state.reg, Root).handlers == RemoveFirst(Get(st.reg, Root).handlers, st.handler.value.id)
              && Get(r.value.state.reg, Root).level == Get(st.reg, Root).level
              && (forall x :: x != Root ==> Get(r.value.state.reg, x) == Get(st.reg, x))
              && r.value.report.passed == report.passed
              && (SectionsOf(r.value.report) == SectionsOf(report) ==> r.value.report == report)
              && (SectionsOf(r.value.report) != SectionsOf(report) <==>
                    !report.passed && AcceptsSections(report) && !Text.AllSpace(st.handler.value.text))
              && (SectionsOf(r.value.report) != SectionsOf(report) ==>
                    SectionsOf(r.value.report) == SectionsOf(report) + [Section("Captured log", Text.Strip(st.handler.value.text))])
  {
    LegacyCatchLog.MakeReportWith(st, when, report, true, HandlerAttribute)
  }

  /** The scenario of `test_nothing_logged`: a failing test that logged
      nothing gets no 'Captured log' section. */
  lemma NothingLoggedNoSection(p: Plugin, st: LegacyCatchLog.State, id: HandlerId, report: TestReport)
    requires !report.passed
    ensures var s1 := Setup(p, st, id);
            var r := MakeReport(p, s1, "call", report);
            r.Success? && r.value.report == report
  {
    var s1 := Setup(p, st, id);
    assert Text.AllSpace(s1.handler.value.text);
  }
}

=== FILE: legacy_catchlog.dfy ===
/** The per-test lifecycle of the single-module pytest_catchlog.py: setup
    creates a handler and attaches it to the root logger; the report hook,
    at the 'call' phase only, detaches and closes it and may copy its text
    into the failure report. */
module LegacyCatchLog {
  import opened Base
  import opened LogRegistry
  import opened Capture
  import opened Report
  import Text

  /** `CatchLogPlugin`: the printing switch (`log_print`) and the formatter
      built from `log_format` and `log_date_format`, shared by all handlers
      of the session. */
  datatype Plugin = Plugin(printLogs: bool, formatter: Formatter)

  /** What the lifecycle works on: the logging registry and the item's
      `catch_log_handler` attribute (absent when `None`). */
  datatype State = State(reg: Registry, handler: Option<Handler>)

  /** The result of the report hook: the new state, the report, and the
      handler it closed and let go of, if any. */
  datatype Reported = Reported(state: State, report: TestReport, released: Option<Handler>)

  /** The item attribute that holds the test's handler. */
  const HandlerAttribute: string := "catch_log_handler"

  /** `pytest_runtest_setup`: a fresh handler (identity `id`) with the
      shared formatter is stored on the item and attached to the root
      logger, and the root logger is set to NOTSET. */
  function Setup(st: State, formatter: Formatter, id: HandlerId): (r: State)
    ensures r.handler == Some(NewHandler(id).(formatter := Some(formatter)))
    ensures Get(r.reg, Root).level == NOTSET
    ensures id !in Get(st.reg, Root).handlers ==> Get(r.reg, Root).handlers == Get(st.reg, Root).handlers + [id]
    ensures id in Get(r.reg, Root).handlers
    ensures id in Get(st.reg, Root).handlers ==> Get(r.reg, Root).handlers == Get(st.reg, Root).handlers
    ensures forall x :: x != Root ==> Get(r.reg, x) == Get(st.reg, x)
  {
    var h := NewHandler(id).(formatter := Some(formatter));
    State(SetLevel(AddHandler(st.reg, Root, id), Root, NOTSET), Some(h))
  }

  /** The report hook with the printing switch as a parameter, so that the
      revision without one can share it. At 'call' it detaches the handler
      from the root logger, adds the section to a failed report when
      printing is on, closes the handler and deletes the attribute; a
      missing attribute (named `attribute` on the item) is an
      `AttributeError`. Other phases pass through. */
  function MakeReportWith(st: State, when: string, report: TestReport, printLogs: bool, attribute: string)
    : (r: Result<Reported, string>)
    ensures when != "call" ==> r == Success(Reported(st, report, None))
    ensures when == "call" ==> (r.Failure? <==> st.handler.None?)
    ensures r.Failure? ==> r.error == "AttributeError: " + attribute
    ensures when == "call" && r.Success? ==>
              && r.value.state.handler.None?
              && r.value.released == Some(Close(st.handler.value))
              && Get(r.value.state.reg, Root).handlers == RemoveFirst(Get(st.reg, Root).handlers, st.handler.value.id)
              && Get(r.value.state.reg, Root).level == Get(st.reg, Root).level
              && (forall x :: x != Root ==> Get(r.value.state.reg, x) == Get(st.reg, x))
              && r.value.report.passed == report.passed
              && (!report.passed && printLogs && AcceptsSections(report) && !Text.AllSpace(st.handler.value.text) ==>
                    SectionsOf(r.value.report) == SectionsOf(report) + [Section("Captured log", Text.Strip(st.handler.value.text))])
              && (!(!report.passed && printLogs && AcceptsSections(report) && !Text.AllSpace(st.handler.value.text)) ==>
                    r.value.report == report)
  {
    if when != "call" then Success(Reported(st, report, None))
    else if st.handler.None? then Failure("AttributeError: " + attribute)
    else
      var h := st.handler.value;
      var reg := RemoveHandler(st.reg, Root, h.id);
      var rep := if !report.passed && printLogs then AddCapturedLog(report, h.text) else report;
      Success(Reported(State(reg, None), rep, Some(Close(h))))
  }

  /** `pytest_runtest_makereport` of this revision: the shared report hook
      with the plugin's printing switch and the `catch_log_handler`
      attribute. With printing off the report is never touched; with it
      on, a section is added exactly when the test failed, the
      representation takes sections and something other than whitespace
      was captured. */
  function MakeReport(p: Plugin, st: State, when: string, report: TestReport): (r: Result<Reported, string>)
    ensures r == MakeReportWith(st, when, report, p.printLogs, HandlerAttribute)
    ensures when == "call" ==> (r.Failure? <==> st.handler.None?)
    ensures !p.printLogs && r.Success? ==> r.value.report == report
    ensures p.printLogs && when == "call" && st.handler.Some? ==>
              (SectionsOf(r.value.report) != SectionsOf(report) <==>
                 !report.passed && AcceptsSections(report) && !Text.AllSpace(st.handler.value.text))
  {
    MakeReportWith(st, when, report, p.printLogs, HandlerAttribute)
  }

  /** A test whose setup and call both ran: if its body left the root
      logger's handler list alone, the call report detaches exactly the
      handler setup attached, so the root list ends as it began (the root
      level, set to NOTSET by setup, is not restored). */
  lemma SetupCallPairing(st: State, p: Plugin, id: HandlerId, body: Env -> Env, report: TestReport)
    requires id !in Get(st.reg, Root).handlers
    requires var s1 := Setup(st, p.formatter, id);
             var e := body(Env(s1.reg, s1.handler.value));
             Get(e.reg, Root).handlers == Get(s1.reg, Root).handlers && e.handler.id == id
    ensures var s1 := Setup(st, p.formatter, id);
            var e := body(Env(s1.reg, s1.handler.value));
            var r := MakeReport(p, State(e.reg, Some(e.handler)), "call", report);
            && r.Success?
            && Get(r.value.state.reg, Root).handlers == Get(st.reg, Root).handlers
            && r.value.released.Some? && r.value.released.value.closed
  {
    var s1 := Setup(st, p.formatter, id);
    var e := body(Env(s1.reg, s1.handler.value));
    RemoveAppended(Get(st.reg, Root).handlers, id);
    assert Get(e.reg, Root).handlers == Get(st.reg, Root).handlers + [id];
  }
}

=== FILE: patch_file.dfy ===
/** The line-rewriting core of `_patch_file` in tasks.py and the line
    callbacks the release tasks hand to it. The file is given as its lines
    with the line terminator removed; the result is the list of lines
    written back, each terminated again, and whether anything changed. */
module PatchFile {
  import opened Base

  /** A line callback: `None` stands for a callback returning `None`. */
  type LineCallback = string -> Option<seq<string>>

  /** `line_callback(l) or [l]`: `None` and `[]` keep the line. */
  function Alternatives(cb: LineCallback, l: string): (alts: seq<string>)
    ensures alts != []
    ensures alts != [l] ==> cb(l).Some? && alts == cb(l).value
    ensures cb(l).Some? && cb(l).value != [] ==> alts == cb(l).value
    ensures cb(l).None? || cb(l).value == [] ==> alts == [l]
  {
    match cb(l)
    case None => [l]
    case Some(xs) => if xs == [] then [l] else xs
  }

  /** `(x + '\n' for x in xs)` */
  function Terminated(xs: seq<string>): (r: seq<string>)
    ensures |r| == |xs|
    ensures forall k :: 0 <= k < |xs| ==> r[k] == xs[k] + "\n"
  {
    seq(|xs|, k requires 0 <= k < |xs| => xs[k] + "\n")
  }

  predicate EndsWithNewline(s: string) {
    s != [] && s[|s| - 1] == '\n'
  }

  /** The content `_patch_file` writes for `lines`: each line's
      alternatives, terminated, in line order. */
  function PatchedContent(lines: seq<string>, cb: LineCallback): (r: seq<string>)
    ensures |r| >= |lines|
    ensures forall k :: 0 <= k < |r| ==> EndsWithNewline(r[k])
    decreases |lines|
  {
    if lines == [] then []
    else
      var last := lines[|lines| - 1];
      PatchedContent(lines[..|lines| - 1], cb) + Terminated(Alternatives(cb, last))
  }

  /** Some line is replaced by something other than itself. */
  predicate SomeLineReplaced(lines: seq<string>, cb: LineCallback) {
    exists i :: 0 <= i < |lines| && Alternatives(cb, lines[i]) != [lines[i]]
  }

  /** The loop of `_patch_file`: the new content and the `file_changed`
      flag. */
  method PatchLines(lines: seq<string>, cb: LineCallback) returns (content: seq<string>, changed: bool)
    ensures content == PatchedContent(lines, cb)
    ensures changed <==> SomeLineReplaced(lines, cb)
    ensures forall k :: 0 <= k < |content| ==> EndsWithNewline(content[k])
  {
    content, changed := [], false;
    var i := 0;
    while i < |lines|
      invariant 0 <= i <= |lines|
      invariant content == PatchedContent(lines[..i], cb)
      invariant changed <==> exists j :: 0 <= j < i && Alternatives(cb, lines[j]) != [lines[j]]
    {
      var l := lines[i];
      var altLines := Alternatives(cb, l);
      if altLines != [l] {
        changed := true;
      }
      content := content + Terminated(altLines);
      assert lines[..i + 1][..i] == lines[..i];
      assert PatchedContent(lines[..i + 1], cb) == PatchedContent(lines[..i], cb) + Terminated(altLines);
      i := i + 1;
    }
    assert lines[..i] == lines;
  }

  lemma NewlineCancel(a: string, b: string)
    requires a + "\n" == b + "\n"
    ensures a == b
  {
    assert a == (a + "\n")[..|a|];
    assert b == (b + "\n")[..|b|];
  }

  /** Lines all kept give the content read, terminated. */
  lemma {:induction false} NoReplacementKeepsContent(lines: seq<string>, cb: LineCallback)
    requires !SomeLineReplaced(lines, cb)
    ensures PatchedContent(lines, cb) == Terminated(lines)
    decreases |lines|
  {
    if lines != [] {
      var init, last := lines[..|lines| - 1], lines[|lines| - 1];
      assert !SomeLineReplaced(init, cb) by {
        forall i | 0 <= i < |init| ensures Alternatives(cb, init[i]) == [init[i]] {
          assert init[i] == lines[i];
        }
      }
      NoReplacementKeepsContent(init, cb);
      assert Alternatives(cb, lines[|lines| - 1]) == [last];
      assert Terminated(lines) == Terminated(init) + [last + "\n"];
    }
  }

  /** Splitting an equality of concatenations at the same length. */
  lemma SplitLast(p: seq<string>, b: seq<string>, q: seq<string>, y: string)
    requires p + b == q + [y] && |p| >= |q| && |b| >= 1
    ensures p == q && b == [y]
  {
    assert p == (p + b)[..|p|];
    assert b == (p + b)[|p|..];
  }

  /** A single terminated line comes from that line alone. */
  lemma TerminatedSingle(xs: seq<string>, y: string)
    requires Terminated(xs) == [y + "\n"]
    ensures xs == [y]
  {
    NewlineCancel(xs[0], y);
  }

  /** Content equal to the lines read means no line was replaced. */
  lemma {:induction false} SameContentNoReplacement(lines: seq<string>, cb: LineCallback)
    requires PatchedContent(lines, cb) == Terminated(lines)
    ensures !SomeLineReplaced(lines, cb)
    decreases |lines|
  {
    if lines != [] {
      var init, last := lines[..|lines| - 1], lines[|lines| - 1];
      var p, b := PatchedContent(init, cb), Terminated(Alternatives(cb, last));
      assert p + b == Terminated(init) + [last + "\n"] by {
        assert Terminated(lines) == Terminated(init) + [last + "\n"];
      }
      SplitLast(p, b, Terminated(init), last + "\n");
      TerminatedSingle(Alternatives(cb, last), last);
      SameContentNoReplacement(init, cb);
      forall i | 0 <= i < |lines| ensures Alternatives(cb, lines[i]) == [lines[i]] {
        if i < |init| {
          assert lines[i] == init[i];
        }
      }
    }
  }

  /** The flag is exact: it is set if and only if the written lines differ
      from the lines read. */
  lemma ChangedIffContentDiffers(lines: seq<string>, cb: LineCallback)
    ensures SomeLineReplaced(lines, cb) <==> PatchedContent(lines, cb) != Terminated(lines)
  {
    if SomeLineReplaced(lines, cb) {
      if PatchedContent(lines, cb) == Terminated(lines) {
        SameContentNoReplacement(lines, cb);
      }
    } else {
      NoReplacementKeepsContent(lines, cb);
    }
  }

  /** A callback that never answers leaves the file as it was. */
  lemma KeepingCallbackChangesNothing(lines: seq<string>, cb: LineCallback)
    requires forall l :: cb(l).None?
    ensures PatchedContent(lines, cb) == Terminated(lines)
  {
    ChangedIffContentDiffers(lines, cb);
  }

  const UnreleasedMarker: string := ".. %UNRELEASED_SECTION%"
  const UnreleasedTitle: string := "`Unreleased`_"
  const UnreleasedNote: string := "Yet to be released."

  /** The block `changelog-add-stub` puts in place of the marker: the
      marker itself followed by an empty 'Unreleased' section. */
  const StubBlock: seq<string> := [UnreleasedMarker, "", UnreleasedTitle, "-------------", "", UnreleasedNote, ""]

  /** The callback of `changelog_add_stub`. */
  function StubCallback(l: string): (r: Option<seq<string>>)
    ensures r.Some? <==> l == UnreleasedMarker
    ensures r.Some? ==> r.value != [] && r.value[0] == l
  {
    if l == UnreleasedMarker then Some(StubBlock) else None
  }

  /** Adding the stub changes the change log exactly when it has a marker
      line. */
  lemma StubChangesIffMarker(lines: seq<string>)
    ensures SomeLineReplaced(lines, StubCallback) <==> UnreleasedMarker in lines
  {
    if UnreleasedMarker in lines {
      var i :| 0 <= i < |lines| && lines[i] == UnreleasedMarker;
      assert Alternatives(StubCallback, lines[i]) == StubBlock;
    }
  }

  /** The marker survives the stub: a marker line is written if and only
      if one was read. */
  lemma {:induction false} StubKeepsMarker(lines: seq<string>)
    ensures UnreleasedMarker + "\n" in PatchedContent(lines, StubCallback) <==> UnreleasedMarker in lines
    decreases |lines|
  {
    if lines != [] {
      var init, last := lines[..|lines| - 1], lines[|lines| - 1];
      StubKeepsMarker(init);
      assert lines == init + [last];
      var b := Terminated(Alternatives(StubCallback, last));
      assert PatchedContent(lines, StubCallback) == PatchedContent(init, StubCallback) + b;
      assert UnreleasedMarker in lines <==> UnreleasedMarker in init || last == UnreleasedMarker;
      if last == UnreleasedMarker {
        assert b[0] == UnreleasedMarker + "\n";
      } else {
        assert b == [last + "\n"];
        if UnreleasedMarker + "\n" == last + "\n" {
          NewlineCancel(UnreleasedMarker, last);
        }
      }
    }
  }

  /** The callback of `_patch_change_log`: the 'Unreleased' title becomes
      the version's title and the note becomes the release line, which the
      source builds from the current UTC date. */
  function ChangeLogCallback(version: string, releasedLine: string): LineCallback {
    (l: string) =>
      if l == UnreleasedTitle then Some(["`" + version + "`_"])
      else if l == UnreleasedNote then Some([releasedLine])
      else None
  }

  /** Releasing changes the change log exactly when it has the title and
      the version's title differs from it, or it has the note and the
      release line differs from it. */
  lemma ChangeLogChanges(lines: seq<string>, version: string, releasedLine: string)
    ensures SomeLineReplaced(lines, ChangeLogCallback(version, releasedLine))
        <==> (UnreleasedTitle in lines && "`" + version + "`_" != UnreleasedTitle)
             || (UnreleasedNote in lines && releasedLine != UnreleasedNote)
  {
    var cb := ChangeLogCallback(version, releasedLine);
    if UnreleasedTitle in lines && "`" + version + "`_" != UnreleasedTitle {
      var i :| 0 <= i < |lines| && lines[i] == UnreleasedTitle;
      assert Alternatives(cb, lines[i]) != [lines[i]];
    }
    if UnreleasedNote in lines && releasedLine != UnreleasedNote {
      var i :| 0 <= i < |lines| && lines[i] == UnreleasedNote;
      assert UnreleasedNote != UnreleasedTitle;
      assert Alternatives(cb, lines[i]) != [lines[i]];
    }
  }
}

=== FILE: registry.dfy ===
/** An explicit model of the process-wide state of Python's `logging`
    module that the plugin touches: for each logger, its own level and the
    ordered list of handlers attached to it. Handlers are referred to by
    identity; their own state lives with whoever owns them. */
module LogRegistry {
  import opened Base

  datatype LoggerRef = Root | Named(name: string)

  /** The `logger` argument accepted by the helpers of common.py: `None`,
      a logger name, or a logger object passed as is. */
  datatype LoggerArg = NoLogger | ByName(name: string) | ByObject(logger: LoggerRef)

  /** Identity of a handler object. */
  type HandlerId = nat

  datatype LoggerState = LoggerState(level: Level, handlers: seq<HandlerId>)

  type Registry = map<LoggerRef, LoggerState>

  /** A logger that `getLogger` creates on first use: the root logger
      starts at WARNING, every other logger at NOTSET. */
  function Fresh(ref: LoggerRef): LoggerState {
    if ref == Root then LoggerState(WARNING, []) else LoggerState(NOTSET, [])
  }

  /** `logging.getLogger(name)`: a falsy name is the root logger. */
  function GetLogger(name: Option<string>): (r: LoggerRef)
    ensures r == Root <==> name == None || name == Some([])
    ensures r.Named? ==> name == Some(r.name)
  {
    match name
    case None => Root
    case Some(n) => if n == [] then Root else Named(n)
  }

  /** The state of a logger, created on demand. */
  function Get(reg: Registry, ref: LoggerRef): LoggerState {
    if ref in reg then reg[ref] else Fresh(ref)
  }

  /** The registry once `ref` has been looked up (and so exists). */
  function Materialize(reg: Registry, ref: LoggerRef): (r: Registry)
    ensures r.Keys == reg.Keys + {ref}
    ensures forall x :: Get(r, x) == Get(reg, x)
  {
    reg[ref := Get(reg, ref)]
  }

  /** `logger.setLevel(level)` */
  function SetLevel(reg: Registry, ref: LoggerRef, level: Level): (r: Registry)
    ensures r.Keys == reg.Keys + {ref}
    ensures Get(r, ref) == LoggerState(level, Get(reg, ref).handlers)
    ensures forall x :: x != ref ==> Get(r, x) == Get(reg, x)
  {
    reg[ref := Get(reg, ref).(level := level)]
  }

  /** `logger.addHandler(h)`: appends `h` unless it is already there. */
  function AddHandler(reg: Registry, ref: LoggerRef, h: HandlerId): (r: Registry)
    ensures r.Keys == reg.Keys + {ref}
    ensures Get(r, ref).level == Get(reg, ref).level
    ensures h in Get(reg, ref).handlers ==> Get(r, ref).handlers == Get(reg, ref).handlers
    ensures h !in Get(reg, ref).handlers ==> Get(r, ref).handlers == Get(reg, ref).handlers + [h]
    ensures forall x :: x != ref ==> Get(r, x) == Get(reg, x)
  {
    var st := Get(reg, ref);
    if h in st.handlers then reg[ref := st] else reg[ref := st.(handlers := st.handlers + [h])]
  }

  /** `list.remove(x)`: drops the first occurrence of `x`, if any. */
  function RemoveFirst(s: seq<HandlerId>, x: HandlerId): (r: seq<HandlerId>)
    ensures x !in s ==> r == s
    ensures x in s ==> |r| == |s| - 1
    ensures multiset(r) == multiset(s) - multiset{x}
  {
    if s == [] then []
    else
      assert s == [s[0]] + s[1..];
      if s[0] == x then s[1..] else [s[0]] + RemoveFirst(s[1..], x)
  }

  /** One step of `list.remove(x)` past a different head. */
  lemma RemoveFirstPast(h: HandlerId, t: seq<HandlerId>, x: HandlerId)
    requires h != x
    ensures RemoveFirst([h] + t, x) == [h] + RemoveFirst(t, x)
  {
    assert ([h] + t)[0] == h && ([h] + t)[1..] == t;
  }

  /** `list.remove(x)` takes out exactly the first occurrence and keeps
      the order of everything else. */
  lemma {:induction false} RemoveFirstAt(a: seq<HandlerId>, x: HandlerId, b: seq<HandlerId>)
    requires x !in a
    ensures RemoveFirst(a + [x] + b, x) == a + b
    decreases |a|
  {
    if a == [] {
      assert a + [x] + b == [x] + b;
      assert ([x] + b)[1..] == b;
    } else {
      var t := a[1..] + [x] + b;
      assert a + [x] + b == [a[0]] + t;
      RemoveFirstAt(a[1..], x, b);
      RemoveFirstPast(a[0], t, x);
      HeadSplit(a, b);
    }
  }

  lemma HeadSplit(a: seq<HandlerId>, b: seq<HandlerId>)
    requires a != []
    ensures a + b == [a[0]] + (a[1..] + b)
  {
    assert a == [a[0]] + a[1..];
  }

  /** Removing a handler that was just appended to a list that did not hold
      it gives back the list. */
  lemma {:induction false} RemoveAppended(s: seq<HandlerId>, x: HandlerId)
    requires x !in s
    ensures RemoveFirst(s + [x], x) == s
  {
    if s != [] {
      assert (s + [x])[1..] == s[1..] + [x];
      RemoveAppended(s[1..], x);
    }
  }

  /** `logger.removeHandler(h)`: removes `h` if present. */
  function RemoveHandler(reg: Registry, ref: LoggerRef, h: HandlerId): (r: Registry)
    ensures r.Keys == reg.Keys + {ref}
    ensures Get(r, ref).level == Get(reg, ref).level
    ensures Get(r, ref).handlers == RemoveFirst(Get(reg, ref).handlers, h)
    ensures forall x :: x != ref ==> Get(r, x) == Get(reg, x)
  {
    var st := Get(reg, ref);
    reg[ref := st.(handlers := RemoveFirst(st.handlers, h))]
  }

  /** The threshold a logger applies to a record, for a flat hierarchy in
      which every named logger's parent is the root: its own level when it
      has one, otherwise the root's. */
  function EffectiveLevel(reg: Registry, ref: LoggerRef): Level {
    if Get(reg, ref).level != NOTSET || ref == Root then Get(reg, ref).level
    else Get(reg, Root).level
  }

  /** `logger.isEnabledFor(levelno)` (first filter point). */
  predicate Enabled(reg: Registry, ref: LoggerRef, levelno: Level) {
    levelno >= EffectiveLevel(reg, ref)
  }
}

=== FILE: report.dfy ===
/** The parts of a test report the single-module revisions touch: whether
    the test passed and the long representation of a failure, which may or
    may not accept extra sections. */
module Report {
  import opened Base
  import opened Text

  datatype Section = Section(title: string, content: string)

  /** `report.longrepr`: a representation without `addsection` (a plain
      string) or one that accepts titled sections. */
  datatype LongRepr = PlainRepr(text: string) | SectionedRepr(sections: seq<Section>)

  datatype TestReport = TestReport(passed: bool, longrepr: Option<LongRepr>)

  /** `hasattr(getattr(report, 'longrepr', None), 'addsection')` */
  predicate AcceptsSections(report: TestReport) {
    report.longrepr.Some? && report.longrepr.value.SectionedRepr?
  }

  /** The sections of a report that accepts them (none otherwise). */
  function SectionsOf(report: TestReport): seq<Section> {
    if AcceptsSections(report) then report.longrepr.value.sections else []
  }

  /** Add the captured text, stripped, as a 'Captured log' section when the
      representation accepts sections and the stripped text is not empty. */
  function AddCapturedLog(report: TestReport, text: string): (r: TestReport)
    ensures r.passed == report.passed
    ensures AcceptsSections(report) && !AllSpace(text) ==>
              && AcceptsSections(r)
              && SectionsOf(r) == SectionsOf(report) + [Section("Captured log", Strip(text))]
    ensures !(AcceptsSections(report) && !AllSpace(text)) ==> r == report
  {
    if AcceptsSections(report) then
      var log := Strip(text);
      if log != [] then
        TestReport(report.passed, Some(SectionedRepr(report.longrepr.value.sections + [Section("Captured log", log)])))
      else report
    else report
  }
}

=== FILE: shell_quote.dfy ===
/** `_shell_quote` of tasks.py, which makes a text safe to paste into a
    shell command line as one argument, and a reader of shell words
    following section 2.2 "Quoting" of the POSIX Shell Command Language
    (IEEE Std 1003.1) against which the quoting is shown to round-trip. */
module ShellQuote {
  import opened Base
  import Text

  /** ASCII `\w`: letters, digits and underscore. */
  predicate IsWordChar(c: char) {
    ('a' <= c <= 'z') || ('A' <= c <= 'Z') || ('0' <= c <= '9') || c == '_'
  }

  /** Characters the pattern `[^\w@%+=:,./-]` does not match. */
  predicate IsSafeChar(c: char) {
    IsWordChar(c) || c in "@%+=:,./-"
  }

  predicate AllSafe(s: string) {
    forall i :: 0 <= i < |s| ==> IsSafeChar(s[i])
  }

  /** `'"'"'`: close the single-quoted string, a double-quoted single
      quote, reopen. */
  const QuoteEscape: string := "'\"'\"'"

  /** `s.replace("'", QuoteEscape)` */
  function ReplaceQuotes(s: string): (r: string)
    ensures '\'' !in s ==> r == s
    ensures |r| >= |s|
    decreases |s|
  {
    match Text.Find(s, '\'')
    case None => s
    case Some(i) => s[..i] + QuoteEscape + ReplaceQuotes(s[i + 1..])
  }

  /** `_shell_quote(s)`: `''` for the empty text, the text itself when every
      character is safe, otherwise the text in single quotes with each
      single quote escaped. */
  function Quote(s: string): (r: string)
    ensures r != []
    ensures s != [] && AllSafe(s) ==> r == s
    ensures AllSafe(r) || (|r| >= 2 && r[0] == '\'' && r[|r| - 1] == '\'')
  {
    if s == [] then "''"
    else if AllSafe(s) then s
    else "'" + ReplaceQuotes(s) + "'"
  }

  /** `a` in front of a word read so far, or no word. */
  function Prepend(a: string, r: Option<string>): (p: Option<string>)
    ensures p.Some? <==> r.Some?
    ensures p.Some? ==> p.value == a + r.value
  {
    match r
    case None => None
    case Some(t) => Some(a + t)
  }

  lemma PrependPrepend(a: string, b: string, r: Option<string>)
    ensures Prepend(a, Prepend(b, r)) == Prepend(a + b, r)
  {
    if r.Some? {
      assert a + (b + r.value) == (a + b) + r.value;
    }
  }

  /** Characters a double-quoted string keeps special: `$`, backquote and
      backslash (section 2.2.3). */
  predicate IsDoubleQuoteSpecial(c: char) {
    c == '$' || c == '`' || c == '\\'
  }

  predicate PlainInDoubleQuotes(t: string) {
    forall i :: 0 <= i < |t| ==> !IsDoubleQuoteSpecial(t[i])
  }

  /** The value of one shell word made of unquoted safe characters,
      single-quoted strings (section 2.2.2: every character up to the next
      single quote is literal) and double-quoted strings free of
      `$`, backquote and backslash (section 2.2.3). `None` for a word
      outside that subset or an unterminated quote. */
  function ReadWord(w: string): (r: Option<string>)
    decreases |w|
  {
    if w == [] then Some([])
    else if w[0] == '\'' then
      match Text.Find(w[1..], '\'')
      case None => None
      case Some(k) => Prepend(w[1..k + 1], ReadWord(w[k + 2..]))
    else if w[0] == '"' then
      match Text.Find(w[1..], '"')
      case None => None
      case Some(k) =>
        if !PlainInDoubleQuotes(w[1..k + 1]) then None
        else Prepend(w[1..k + 1], ReadWord(w[k + 2..]))
    else if IsSafeChar(w[0]) then Prepend([w[0]], ReadWord(w[1..]))
    else None
  }

  /** Safe characters read as themselves. */
  lemma {:induction false} ReadSafe(s: string, rest: string)
    requires AllSafe(s)
    ensures ReadWord(s + rest) == Prepend(s, ReadWord(rest))
    decreases |s|
  {
    if s != [] {
      var w := s + rest;
      assert w[0] == s[0] && IsSafeChar(s[0]);
      assert w[1..] == s[1..] + rest;
      assert ReadWord(w) == Prepend([s[0]], ReadWord(w[1..]));
      ReadSafe(s[1..], rest);
      PrependPrepend([s[0]], s[1..], ReadWord(rest));
      assert [s[0]] + s[1..] == s;
    } else {
      assert s + rest == rest;
      if ReadWord(rest).Some? {
        assert s + ReadWord(rest).value == ReadWord(rest).value;
      }
    }
  }

  /** A single-quoted string reads as its content. */
  lemma ReadSingleQuoted(a: string, rest: string)
    requires '\'' !in a
    ensures ReadWord("'" + a + "'" + rest) == Prepend(a, ReadWord(rest))
  {
    var w := "'" + a + "'" + rest;
    assert w[1..] == a + ['\''] + rest;
    Text.FindAfter(a, '\'', rest);
    assert w[1..|a| + 1] == a;
    assert w[|a| + 2..] == rest;
  }

  /** The double-quoted single quote of the escape reads as `'`. */
  lemma ReadQuotedQuote(rest: string)
    ensures ReadWord("\"'\"" + rest) == Prepend("'", ReadWord(rest))
  {
    var w := "\"'\"" + rest;
    assert w[1..] == "'" + ['"'] + rest;
    Text.FindAfter("'", '"', rest);
    assert w[1..2] == "'";
    assert w[3..] == rest;
  }

  /** Regrouping of a quoted text around one escape. */
  lemma QuotedSplit(a: string, q: string, rest: string)
    ensures "'" + (a + QuoteEscape + q) + "'" + rest == "'" + a + "'" + ("\"'\"" + ("'" + q + "'" + rest))
  {
    assert QuoteEscape == "'" + "\"'\"" + "'";
  }

  /** Reading one escape: the content before the quote, the quote, then
      whatever the rest reads as. */
  lemma ReadEscape(a: string, q: string, rest: string)
    requires '\'' !in a
    ensures ReadWord("'" + (a + QuoteEscape + q) + "'" + rest) == Prepend(a + "'", ReadWord("'" + q + "'" + rest))
  {
    var tail := "'" + q + "'" + rest;
    QuotedSplit(a, q, rest);
    ReadSingleQuoted(a, "\"'\"" + tail);
    ReadQuotedQuote(tail);
    PrependPrepend(a, "'", ReadWord(tail));
  }

  /** One escape in front of a text that already reads back. */
  lemma ReadEscapeThen(a: string, b: string, rest: string)
    requires '\'' !in a
    requires ReadWord("'" + ReplaceQuotes(b) + "'" + rest) == Prepend(b, ReadWord(rest))
    ensures ReadWord("'" + (a + QuoteEscape + ReplaceQuotes(b)) + "'" + rest) == Prepend(a + "'" + b, ReadWord(rest))
  {
    ReadEscape(a, ReplaceQuotes(b), rest);
    PrependPrepend(a + "'", b, ReadWord(rest));
  }

  /** The quoted form of `s` reads as `s`, whatever follows it. */
  lemma {:induction false} ReadQuoted(s: string, rest: string)
    ensures ReadWord("'" + ReplaceQuotes(s) + "'" + rest) == Prepend(s, ReadWord(rest))
    decreases |s|
  {
    match Text.Find(s, '\'')
    case None =>
      ReadSingleQuoted(s, rest);
    case Some(i) =>
      var a, b := s[..i], s[i + 1..];
      ReplaceQuotesAt(s, i);
      ReadQuoted(b, rest);
      ReadEscapeThen(a, b, rest);
  }

  /** The text around its first quote, and its quoted form around the
      first escape. */
  lemma ReplaceQuotesAt(s: string, i: nat)
    requires Text.Find(s, '\'') == Some(i)
    ensures '\'' !in s[..i]
    ensures s[..i] + "'" + s[i + 1..] == s
    ensures ReplaceQuotes(s) == s[..i] + QuoteEscape + ReplaceQuotes(s[i + 1..])
  {
    assert [s[i]] == "'";
    SplitAround(s, i);
  }

  lemma SplitAround(s: string, i: nat)
    requires i < |s|
    ensures s[..i] + [s[i]] + s[i + 1..] == s
  {
    assert s == s[..i] + s[i..] && s[i..] == [s[i]] + s[i + 1..];
  }

  /** Reading back the quoted argument yields the original text, for every
      text. */
  lemma QuoteRoundTrip(s: string)
    ensures ReadWord(Quote(s)) == Some(s)
  {
    if s == [] {
      ReadSingleQuoted([], []);
      assert "'" + [] + "'" + [] == "''";
    } else if AllSafe(s) {
      ReadSafe(s, []);
      assert s + [] == s;
    } else {
      ReadQuoted(s, []);
      assert "'" + ReplaceQuotes(s) + "'" + [] == Quote(s);
      assert s + [] == s;
    }
  }
}

=== FILE: text.dfy ===
/** The few Python 3 string operations the plugin and the release helpers
    rely on: `strip()` with Python's full set of whitespace characters,
    `upper()` and `lower()` on ASCII letters, decimal `int()`/`str()` on
    non-negative numbers and `split(sep)`. */
module Text {
  import opened Base

  /** Characters Python 3's `str.strip()` removes (`str.isspace()`): tab to
      carriage return, the four ASCII separators 28-31, space, NEL,
      no-break space, and the Unicode space and line-separator characters. */
  predicate IsSpace(c: char) {
    var n := c as int;
    || 9 <= n <= 13
    || 28 <= n <= 32
    || n == 133 || n == 160 || n == 5760
    || 8192 <= n <= 8202
    || n == 8232 || n == 8233 || n == 8239 || n == 8287 || n == 12288
  }

  predicate AllSpace(s: string) {
    forall i :: 0 <= i < |s| ==> IsSpace(s[i])
  }

  /** How many whitespace characters `s` starts with. */
  function LeadingSpace(s: string): (n: nat)
    ensures n <= |s|
    ensures forall k :: 0 <= k < n ==> IsSpace(s[k])
    ensures n < |s| ==> !IsSpace(s[n])
    decreases |s|
  {
    if s != [] && IsSpace(s[0]) then
      var n := 1 + LeadingSpace(s[1..]);
      assert forall k :: 1 <= k < n ==> s[1..][k - 1] == s[k];
      n
    else 0
  }

  /** How many whitespace characters `s` ends with. */
  function TrailingSpace(s: string): (n: nat)
    ensures n <= |s|
    ensures forall k :: |s| - n <= k < |s| ==> IsSpace(s[k])
    ensures n < |s| ==> !IsSpace(s[|s| - n - 1])
    decreases |s|
  {
    if s != [] && IsSpace(s[|s| - 1]) then 1 + TrailingSpace(s[..|s| - 1]) else 0
  }

  /** Both ends of a text with some non-space character meet before they
      cross. */
  lemma SpaceCountsMeet(s: string)
    requires LeadingSpace(s) < |s|
    ensures LeadingSpace(s) + TrailingSpace(s) < |s|
  {
  }

  /** `s.strip()`: the text between the leading and the trailing
      whitespace. */
  function Strip(s: string): (r: string)
    ensures |r| <= |s|
    ensures r == [] <==> AllSpace(s)
    ensures r != [] ==> !IsSpace(r[0]) && !IsSpace(r[|r| - 1])
    ensures r != [] ==> r == s[LeadingSpace(s)..|s| - TrailingSpace(s)]
  {
    if LeadingSpace(s) == |s| then []
    else
      SpaceCountsMeet(s);
      s[LeadingSpace(s)..|s| - TrailingSpace(s)]
  }

  /** What `strip` drops is whitespace on both sides. */
  lemma StripDropsSpace(s: string)
    ensures AllSpace(s[..LeadingSpace(s)])
    ensures Strip(s) != [] ==> AllSpace(s[|s| - TrailingSpace(s)..])
  {
  }

  function UpperChar(c: char): char {
    if 'a' <= c <= 'z' then (c as int - 32) as char else c
  }

  function LowerChar(c: char): char {
    if 'A' <= c <= 'Z' then (c as int + 32) as char else c
  }

  /** `s.upper()` */
  function Upper(s: string): (r: string)
    ensures |r| == |s|
    ensures forall i :: 0 <= i < |s| ==> r[i] == UpperChar(s[i])
  {
    seq(|s|, i requires 0 <= i < |s| => UpperChar(s[i]))
  }

  /** `s.lower()` */
  function Lower(s: string): (r: string)
    ensures |r| == |s|
    ensures forall i :: 0 <= i < |s| ==> r[i] == LowerChar(s[i])
  {
    seq(|s|, i requires 0 <= i < |s| => LowerChar(s[i]))
  }

  predicate IsDigit(c: char) {
    '0' <= c <= '9'
  }

  /** A non-empty run of ASCII decimal digits (`\d+`). */
  predicate IsDigits(s: string) {
    s != [] && forall i :: 0 <= i < |s| ==> IsDigit(s[i])
  }

  /** `int(s)` for a run of decimal digits; leading zeros are allowed. */
  function DigitsValue(s: string): nat
    requires IsDigits(s)
    decreases |s|
  {
    var d := (s[|s| - 1] as int - '0' as int);
    if |s| == 1 then d else DigitsValue(s[..|s| - 1]) * 10 + d
  }

  function DigitChar(d: nat): (c: char)
    requires d < 10
    ensures IsDigit(c) && c as int - '0' as int == d
  {
    ('0' as int + d) as char
  }

  /** `str(n)` for a non-negative integer. */
  function NatToString(n: nat): (r: string)
    ensures IsDigits(r)
    decreases n
  {
    if n < 10 then [DigitChar(n)] else NatToString(n / 10) + [DigitChar(n % 10)]
  }

  /** `int(str(n)) == n` */
  lemma {:induction false} NatToStringRoundTrip(n: nat)
    ensures DigitsValue(NatToString(n)) == n
    decreases n
  {
    if n >= 10 {
      var p := NatToString(n / 10);
      NatToStringRoundTrip(n / 10);
      assert NatToString(n)[..|NatToString(n)| - 1] == p;
    }
  }

  /** `s.find(c)`: the index of the first `c`, if any. */
  function Find(s: string, c: char): (r: Option<nat>)
    ensures r.None? <==> c !in s
    ensures r.Some? ==> r.value < |s| && s[r.value] == c && c !in s[..r.value]
    decreases |s|
  {
    if s == [] then None
    else if s[0] == c then Some(0)
    else
      match Find(s[1..], c)
      case None => None
      case Some(k) =>
        assert s[..k + 1] == [s[0]] + s[1..][..k];
        Some(k + 1)
  }

  /** The first `c` after a `c`-free prefix is right behind it. */
  lemma {:induction false} FindAfter(a: string, c: char, rest: string)
    requires c !in a
    ensures Find(a + [c] + rest, c) == Some(|a|)
    decreases |a|
  {
    if a != [] {
      FindAfter(a[1..], c, rest);
      assert (a + [c] + rest)[1..] == a[1..] + [c] + rest;
    }
  }

  /** `s.split(sep)`: the pieces between separators, in order; there is
      always one more piece than separators. */
  function Split(s: string, sep: char): (r: seq<string>)
    ensures |r| >= 1
    ensures forall k :: 0 <= k < |r| ==> sep !in r[k]
    decreases |s|
  {
    if s == [] then [[]]
    else
      var rest := Split(s[1..], sep);
      if s[0] == sep then [[]] + rest else [[s[0]] + rest[0]] + rest[1..]
  }

  /** Joining the pieces with the separator gives back the text. */
  function Join(parts: seq<string>, sep: char): string
    requires |parts| >= 1
  {
    if |parts| == 1 then parts[0] else parts[0] + [sep] + Join(parts[1..], sep)
  }

  lemma {:induction false} SplitJoin(s: string, sep: char)
    ensures Join(Split(s, sep), sep) == s
    decreases |s|
  {
    if s != [] {
      SplitJoin(s[1..], sep);
      var rest := Split(s[1..], sep);
      if s[0] != sep {
        if |rest| == 1 {
        } else {
          assert ([s[0]] + rest[0]) + [sep] + Join(rest[1..], sep) == [s[0]] + (rest[0] + [sep] + Join(rest[1..], sep));
        }
      }
    }
  }

  /** Splitting a text that starts with a separator-free piece yields that
      piece first. */
  lemma {:induction false} SplitPrefix(a: string, sep: char, rest: string)
    requires sep !in a
    ensures Split(a + [sep] + rest, sep) == [a] + Split(rest, sep)
    decreases |a|
  {
    if a == [] {
      assert a + [sep] + rest == [sep] + rest;
      assert ([sep] + rest)[1..] == rest;
    } else {
      SplitPrefix(a[1..], sep, rest);
      assert (a + [sep] + rest)[1..] == a[1..] + [sep] + rest;
      assert [a[0]] + a[1..] == a;
    }
  }

  /** A separator-free text is a single piece. */
  lemma {:induction false} SplitNoSep(a: string, sep: char)
    requires sep !in a
    ensures Split(a, sep) == [a]
    decreases |a|
  {
    if a != [] {
      SplitNoSep(a[1..], sep);
      assert [a[0]] + a[1..] == a;
    }
  }
}

=== FILE: versions.dfy ===
/** The version bookkeeping of tasks.py: reading version triples out of the
    repository's tag list, guessing the next release and writing a triple
    back as a tag name. */
module Versions {
  import opened Base
  import Text

  /** A release number as the tuple `(major, minor, patch)`. */
  datatype Version = Version(major: nat, minor: nat, patch: nat)

  /** Python's tuple order: lexicographic. */
  predicate Less(a: Version, b: Version) {
    a.major < b.major
    || (a.major == b.major && a.minor < b.minor)
    || (a.major == b.major && a.minor == b.minor && a.patch < b.patch)
  }

  predicate LessEq(a: Version, b: Version) {
    a == b || Less(a, b)
  }

  lemma LessTotal(a: Version, b: Version)
    ensures Less(a, b) || a == b || Less(b, a)
  {
  }

  /** The tag grammar `^v?(\d+)(?:\.(\d+)(?:\.(\d+))?)?$`, each group read
      as a decimal number and a missing group as 0; `None` when the tag
      does not match. */
  function ParseTag(t: string): (r: Option<Version>)
    ensures r.Some? ==> t != []
    ensures r.Some? <==> GroupsMatch(Text.Split(DropV(t), '.'))
  {
    ParseGroups(Text.Split(DropV(t), '.'))
  }

  /** The tag without its optional leading `v`. */
  function DropV(t: string): (body: string)
    ensures t != [] && t[0] == 'v' ==> t == "v" + body
    ensures !(t != [] && t[0] == 'v') ==> body == t
  {
    if t != [] && t[0] == 'v' then t[1..] else t
  }

  /** The dot-separated groups match `(\d+)(?:\.(\d+)(?:\.(\d+))?)?`: one to
      three groups, each a non-empty run of digits. */
  predicate GroupsMatch(groups: seq<string>) {
    1 <= |groups| <= 3 && forall k :: 0 <= k < |groups| ==> Text.IsDigits(groups[k])
  }

  /** The decimal value of group `k`, 0 when the group is missing. */
  function GroupValue(groups: seq<string>, k: nat): nat
    requires GroupsMatch(groups)
  {
    if k < |groups| then Text.DigitsValue(groups[k]) else 0
  }

  /** One to three groups of digits, the missing ones read as 0. */
  function ParseGroups(groups: seq<string>): (r: Option<Version>)
    ensures r.Some? <==> GroupsMatch(groups)
    ensures r.Some? ==> r.value == Version(GroupValue(groups, 0), GroupValue(groups, 1), GroupValue(groups, 2))
  {
    if |groups| == 0 || |groups| > 3 || exists k :: 0 <= k < |groups| && !Text.IsDigits(groups[k]) then None
    else
      Some(Version(Text.DigitsValue(groups[0]),
                   if |groups| > 1 then Text.DigitsValue(groups[1]) else 0,
                   if |groups| > 2 then Text.DigitsValue(groups[2]) else 0))
  }

  /** The values `f` gives for the lines it accepts, in line order. */
  function Collect<T>(lines: seq<string>, f: string -> Option<T>): (r: seq<T>)
    decreases |lines|
  {
    if lines == [] then []
    else
      var rest := Collect(lines[1..], f);
      match f(lines[0])
      case None => rest
      case Some(v) => [v] + rest
  }

  /** A value is collected exactly when some line gives it. */
  lemma {:induction false} CollectMembers<T>(lines: seq<string>, f: string -> Option<T>, v: T)
    ensures v in Collect(lines, f) <==> exists i :: 0 <= i < |lines| && f(lines[i]) == Some(v)
    decreases |lines|
  {
    if lines != [] {
      CollectMembers(lines[1..], f, v);
      assert v in Collect(lines, f) <==> f(lines[0]) == Some(v) || v in Collect(lines[1..], f);
      if exists i :: 0 <= i < |lines| && f(lines[i]) == Some(v) {
        var i :| 0 <= i < |lines| && f(lines[i]) == Some(v);
        if i > 0 {
          assert lines[1..][i - 1] == lines[i];
        }
      }
      if exists i :: 0 <= i < |lines[1..]| && f(lines[1..][i]) == Some(v) {
        var i :| 0 <= i < |lines[1..]| && f(lines[1..][i]) == Some(v);
        assert lines[i + 1] == lines[1..][i];
      }
    }
  }

  /** The version one line of the tag list names, if any: `t.strip()`,
      skipped when empty, then matched. */
  function TagOf(line: string): Option<Version> {
    var t := Text.Strip(line);
    if t != [] then ParseTag(t) else None
  }

  /** The versions named by the tags, one line each, in line order: every
      line is stripped, and empty or unmatched lines are dropped. */
  function ParsedTags(lines: seq<string>): seq<Version> {
    Collect(lines, TagOf)
  }

  /** A version is found exactly when some line, stripped, parses to it. */
  lemma ParsedTagsMembers(lines: seq<string>, v: Version)
    ensures v in ParsedTags(lines) <==> exists i :: 0 <= i < |lines| && TagOf(lines[i]) == Some(v)
  {
    CollectMembers(lines, TagOf, v);
  }

  /** The versions of a sequence, as a set. */
  function Elems(vs: seq<Version>): set<Version> {
    set v | v in vs
  }

  /** Some line, stripped, parses to `v`. */
  predicate NamedByLine(lines: seq<string>, v: Version) {
    exists i :: 0 <= i < |lines| && TagOf(lines[i]) == Some(v)
  }

  /** `_version_find_existing`, given the output of `git tag -l`: the set of
      versions named by its lines, each stripped. */
  function ExistingVersions(tagList: string): (r: set<Version>)
    ensures forall v :: v in r <==> NamedByLine(Text.Split(tagList, '\n'), v)
  {
    var lines := Text.Split(tagList, '\n');
    assert forall v :: v in Elems(ParsedTags(lines)) <==> NamedByLine(lines, v) by {
      forall v ensures v in Elems(ParsedTags(lines)) <==> NamedByLine(lines, v) {
        ParsedTagsMembers(lines, v);
      }
    }
    Elems(ParsedTags(lines))
  }

  /** `max` of the versions, or `None` (the `ValueError` of `max` on an
      empty collection). */
  function Latest(vs: seq<Version>): (r: Option<Version>)
    ensures r.None? <==> vs == []
    ensures r.Some? ==> r.value in vs && forall v :: v in vs ==> LessEq(v, r.value)
    decreases |vs|
  {
    if vs == [] then None
    else
      match Latest(vs[1..])
      case None => Some(vs[0])
      case Some(m) =>
        LessTotal(m, vs[0]);
        assert forall v :: v in vs ==> v == vs[0] || v in vs[1..];
        Some(if Less(m, vs[0]) then vs[0] else m)
  }

  lemma ElemsEmpty(vs: seq<Version>)
    ensures Elems(vs) == {} ==> vs == []
  {
    if vs != [] {
      assert vs[0] in Elems(vs);
    }
  }

  /** The latest version depends only on which versions exist, not on their
      order or repetition, as `max` over a set. */
  lemma LatestOfSameSet(vs: seq<Version>, ws: seq<Version>)
    requires Elems(vs) == Elems(ws)
    ensures Latest(vs) == Latest(ws)
  {
    if vs != [] {
      assert vs[0] in Elems(ws);
      var a, b := Latest(vs).value, Latest(ws).value;
      assert a in Elems(ws) && a in ws;
      assert b in Elems(vs) && b in vs;
      assert LessEq(a, b) && LessEq(b, a);
    } else {
      ElemsEmpty(ws);
    }
  }

  /** `{'major': 0, 'minor': 1, 'patch': 2}[position]` */
  function PositionIndex(position: string): (r: Option<nat>)
    ensures r.Some? ==> r.value <= 2
  {
    if position == "major" then Some(0)
    else if position == "minor" then Some(1)
    else if position == "patch" then Some(2)
    else None
  }

  /** `list(latest)`, bump at `index`, `[index + 1:] = [0] * (2 - index)`,
      `tuple(...)`. */
  function Bump(v: Version, index: nat): (r: Version)
    requires index <= 2
    ensures index == 0 ==> r == Version(v.major + 1, 0, 0)
    ensures index == 1 ==> r == Version(v.major, v.minor + 1, 0)
    ensures index == 2 ==> r == Version(v.major, v.minor, v.patch + 1)
  {
    var l := [v.major, v.minor, v.patch];
    var bumped := l[index := l[index] + 1];
    var zeroed := bumped[..index + 1] + seq(2 - index, _ => 0);
    Version(zeroed[0], zeroed[1], zeroed[2])
  }

  /** `_version_guess_next(position)` over the existing versions: bump the
      latest one, or `(0, 0, 0)` when there is none, at `position`; an
      unknown position is a `KeyError`. */
  function GuessNext(existing: seq<Version>, position: string): (r: Result<Version, string>)
    ensures r.Failure? <==> PositionIndex(position).None?
    ensures r.Success? ==> forall v :: v in existing ==> Less(v, r.value)
    ensures r.Success? ==>
              r.value == Bump(if existing == [] then Version(0, 0, 0) else Latest(existing).value,
                              PositionIndex(position).value)
  {
    var latest := match Latest(existing) case None => Version(0, 0, 0) case Some(m) => m;
    match PositionIndex(position)
    case None => Failure("KeyError: " + position)
    case Some(i) => Success(Bump(latest, i))
  }

  /** With no tags at all the first guess is 0.1.0 by default. */
  lemma FirstGuess()
    ensures GuessNext([], "minor") == Success(Version(0, 1, 0))
  {
  }

  /** `_version_format(version)`: the components in decimal, joined with
      dots. */
  function FormatVersion(v: Version): (r: string)
    ensures r != [] && Text.IsDigit(r[0]) && Text.IsDigit(r[|r| - 1])
    ensures Text.Split(r, '.') == [Text.NatToString(v.major), Text.NatToString(v.minor), Text.NatToString(v.patch)]
  {
    var a, b, c := Text.NatToString(v.major), Text.NatToString(v.minor), Text.NatToString(v.patch);
    JoinThree(a, b, c);
    assert Text.IsDigit(a[0]) && Text.IsDigit(c[|c| - 1]);
    ThreeGroupsSplit(a, b, c);
    Text.Join([a, b, c], '.')
  }

  /** Three digit runs joined with dots split back into themselves. */
  lemma ThreeGroupsSplit(a: string, b: string, c: string)
    requires Text.IsDigits(a) && Text.IsDigits(b) && Text.IsDigits(c)
    ensures Text.Split(a + ['.'] + (b + ['.'] + c), '.') == [a, b, c]
  {
    DigitsHaveNoDot(a);
    DigitsHaveNoDot(b);
    DigitsHaveNoDot(c);
    Text.SplitPrefix(a, '.', b + ['.'] + c);
    Text.SplitPrefix(b, '.', c);
    Text.SplitNoSep(c, '.');
  }

  lemma JoinThree(a: string, b: string, c: string)
    ensures Text.Join([a, b, c], '.') == a + ['.'] + (b + ['.'] + c)
  {
    assert [a, b, c][1..] == [b, c];
    assert [b, c][1..] == [c];
    assert Text.Join([c], '.') == c;
    assert Text.Join([b, c], '.') == b + ['.'] + c;
  }

  lemma DigitsHaveNoDot(s: string)
    requires Text.IsDigits(s)
    ensures '.' !in s
  {
    forall i | 0 <= i < |s| ensures s[i] != '.' {
      assert Text.IsDigit(s[i]);
    }
  }

  /** A formatted version parses back to itself, which is what lets the tag
      of a release be found again by the next guess. */
  lemma FormatParseRoundTrip(v: Version)
    ensures ParseTag(FormatVersion(v)) == Some(v)
  {
    var a, b, c := Text.NatToString(v.major), Text.NatToString(v.minor), Text.NatToString(v.patch);
    var t := FormatVersion(v);
    JoinThree(a, b, c);
    DigitsHaveNoDot(a);
    DigitsHaveNoDot(b);
    DigitsHaveNoDot(c);
    Text.SplitPrefix(a, '.', b + ['.'] + c);
    Text.SplitPrefix(b, '.', c);
    Text.SplitNoSep(c, '.');
    assert Text.Split(t, '.') == [a, b, c];
    Text.NatToStringRoundTrip(v.major);
    Text.NatToStringRoundTrip(v.minor);
    Text.NatToStringRoundTrip(v.patch);
  }

  /** A tag made of one or two groups reads the missing groups as 0. */
  lemma ShortTagsPadWithZero(major: nat, minor: nat)
    ensures ParseTag(Text.NatToString(major)) == Some(Version(major, 0, 0))
    ensures ParseTag(Text.NatToString(major) + "." + Text.NatToString(minor)) == Some(Version(major, minor, 0))
  {
    var a, b := Text.NatToString(major), Text.NatToString(minor);
    assert Text.IsDigit(a[0]);
    DigitsHaveNoDot(a);
    DigitsHaveNoDot(b);
    Text.SplitNoSep(a, '.');
    Text.SplitPrefix(a, '.', b);
    Text.SplitNoSep(b, '.');
    assert a + "." + b == a + ['.'] + b;
    assert (a + "." + b)[0] == a[0];
    Text.NatToStringRoundTrip(major);
    Text.NatToStringRoundTrip(minor);
  }

  /** The leading `v` is optional. */
  lemma LeadingVIsOptional(t: string)
    requires t != [] && Text.IsDigit(t[0])
    ensures ParseTag("v" + t) == ParseTag(t)
  {
    var w := "v" + t;
    assert w[0] == 'v' && w[1..] == t;
    assert t[0] != 'v';
  }

  /** The optional `v` only ever touches the first group. */
  lemma DropVSplit(a: string, rest: string)
    requires '.' !in a
    ensures Text.Split(DropV(a + "." + rest), '.') == [DropV(a)] + Text.Split(rest, '.')
  {
    var t := a + "." + rest;
    if a != [] && a[0] == 'v' {
      assert DropV(t) == a[1..] + ['.'] + rest;
      assert '.' !in a[1..] by {
        forall i | 0 <= i < |a| - 1 ensures a[1..][i] != '.' {
          assert a[1..][i] == a[i + 1];
        }
      }
      Text.SplitPrefix(a[1..], '.', rest);
    } else {
      assert t == a + ['.'] + rest;
      Text.SplitPrefix(a, '.', rest);
    }
  }

  /** The groups of a formatted version followed by a dot-free suffix: the
      suffix sticks to the last group. */
  lemma SuffixedGroups(v: Version, suffix: string)
    requires '.' !in suffix
    ensures Text.Split(DropV(FormatVersion(v) + suffix), '.')
            == [Text.NatToString(v.major), Text.NatToString(v.minor), Text.NatToString(v.patch) + suffix]
  {
    var a, b, c := Text.NatToString(v.major), Text.NatToString(v.minor), Text.NatToString(v.patch);
    var t := FormatVersion(v) + suffix;
    JoinThree(a, b, c);
    assert t == a + ['.'] + (b + ['.'] + (c + suffix));
    DigitsHaveNoDot(a);
    DigitsHaveNoDot(b);
    DigitsHaveNoDot(c);
    assert DropV(t) == t by {
      assert t[0] == a[0] && Text.IsDigit(a[0]);
    }
    Text.SplitPrefix(a, '.', b + ['.'] + (c + suffix));
    Text.SplitPrefix(b, '.', c + suffix);
    Text.SplitNoSep(c + suffix, '.');
  }

  /** A release tag with a suffix that is not a digit run, such as `1.2.0-rc1`
      or `1.2.0b2`, names no version. */
  lemma SuffixedTagRejected(v: Version, suffix: string)
    requires '.' !in suffix
    requires exists i :: 0 <= i < |suffix| && !Text.IsDigit(suffix[i])
    ensures ParseTag(FormatVersion(v) + suffix) == None
  {
    var last := Text.NatToString(v.patch) + suffix;
    SuffixedGroups(v, suffix);
    assert !Text.IsDigits(last) by {
      var i :| 0 <= i < |suffix| && !Text.IsDigit(suffix[i]);
      assert last[|Text.NatToString(v.patch)| + i] == suffix[i];
    }
    var groups := Text.Split(DropV(FormatVersion(v) + suffix), '.');
    assert |groups| == 3 && groups[2] == last;
    assert !GroupsMatch(groups);
  }

  /** Pre-release tags such as `v1.2.0-rc1` and `1.0b2` name no version:
      their last group holds a letter. */
  lemma PreReleaseTagsRejected(t: string)
    requires t == "v1.2.0-rc1" || t == "1.0b2"
    ensures ParseTag(t) == None
  {
    if t == "1.0b2" {
      NonDigitLastGroup(t, "1", "", "0b2");
    } else {
      NonDigitLastGroup(t, "1", "2", "0-rc1");
    }
  }

  /** A tag whose groups after the optional `v` are `a`, then `b` when it is
      not empty, then `last`, with a non-digit second character in `last`. */
  lemma NonDigitLastGroup(t: string, a: string, b: string, last: string)
    requires '.' !in a && '.' !in b && '.' !in last
    requires |last| >= 2 && !Text.IsDigit(last[1])
    requires DropV(t) == if b == [] then a + "." + last else a + "." + (b + "." + last)
    ensures ParseTag(t) == None
  {
    var groups := Text.Split(DropV(t), '.');
    if b == [] {
      Text.SplitPrefix(a, '.', last);
      Text.SplitNoSep(last, '.');
      assert |groups| == 2 && groups[1] == last;
    } else {
      Text.SplitPrefix(a, '.', b + "." + last);
      Text.SplitPrefix(b, '.', last);
      Text.SplitNoSep(last, '.');
      assert |groups| == 3 && groups[2] == last;
    }
  }

  /** Four groups are too many. */
  lemma TooManyGroupsRejected(a: string, b: string, c: string, d: string)
    requires '.' !in a && '.' !in b && '.' !in c
    ensures ParseTag(a + "." + b + "." + c + "." + d) == None
  {
    var rest := b + "." + c + "." + d;
    assert a + "." + b + "." + c + "." + d == a + "." + rest;
    var groups := Text.Split(DropV(a + "." + rest), '.');
    assert |groups| >= 4 by {
      DropVSplit(a, rest);
      assert rest == b + ['.'] + (c + ['.'] + d);
      Text.SplitPrefix(b, '.', c + ['.'] + d);
      Text.SplitPrefix(c, '.', d);
    }
    assert ParseGroups(groups) == None;
  }

  /** An empty group never matches. */
  lemma EmptyGroupRejected(a: string, b: string)
    requires '.' !in a
    ensures ParseTag(a + ".." + b) == None
  {
    var rest := "." + b;
    assert a + ".." + b == a + "." + rest by {
      assert ".." + b == "." + rest;
    }
    var groups := Text.Split(DropV(a + "." + rest), '.');
    assert |groups| >= 2 && groups[1] == [] by {
      DropVSplit(a, rest);
      assert rest == [] + ['.'] + b;
      Text.SplitPrefix([], '.', b);
    }
    assert ParseGroups(groups) == None by {
      assert !Text.IsDigits(groups[1]);
    }
  }

  /** A digits-only text has no surrounding whitespace to strip. */
  lemma StripKeepsVersion(v: Version)
    ensures Text.Strip(FormatVersion(v)) == FormatVersion(v)
  {
    var t := FormatVersion(v);
    assert !Text.IsSpace(t[0]) && !Text.IsSpace(t[|t| - 1]);
  }

  /** Once the tag of `v` is listed by `git tag -l`, `v` is among the
      existing versions and every later guess lies beyond it. */
  lemma TaggedReleaseIsSeen(tagList: string, v: Version, position: string)
    requires exists i :: 0 <= i < |Text.Split(tagList, '\n')| && Text.Split(tagList, '\n')[i] == FormatVersion(v)
    requires PositionIndex(position).Some?
    ensures v in ExistingVersions(tagList)
    ensures Less(v, GuessNext(ParsedTags(Text.Split(tagList, '\n')), position).value)
  {
    var lines := Text.Split(tagList, '\n');
    var i :| 0 <= i < |lines| && lines[i] == FormatVersion(v);
    StripKeepsVersion(v);
    FormatParseRoundTrip(v);
    assert TagOf(lines[i]) == Some(v);
    ParsedTagsMembers(lines, v);
  }
}
